=== FILE: README.md ===
# ISA metadata import and image metadata export, in Dafny

This project models the two pure transformations at the heart of a pair of
OMERO scripts:

- **ISA import** (`ISAImport/ISA_Import.py`). An ISA workbook is a list of
  sheets, and each sheet is a list of rows of string cells. The rows are
  folded into an insertion-ordered dictionary from namespace to an
  insertion-ordered dictionary of key/value strings. A row whose stripped
  first cell is upper-case in Python's `str.isupper()` sense is a section
  header. It opens the namespace `ARC:ISA:<SHEET NAME UPPER-CASED>:<header>`
  and resets that namespace's record to empty. After a header, any row that
  is not a header and whose stripped first cell is non-empty stores that key
  with the `", "`-join of its stripped remaining cells. `apply_metadata` then turns every namespace into
  one key-value annotation, in the dictionary's order.
- **Image export** (`ImageToFile/ImageToExcel.py`). Each image gives one row:
  six fixed columns (`ImageName`, `PixelSizeX`, `PixelSizeY`, `PixelSizeZ`,
  `Channels`, `TimeAxis`), updated with the key/value pairs of the image's map
  annotations. Later pairs win, and a pair may overwrite a fixed column. The
  rows are written to a CSV file named after the first dataset, after the
  single image without its extension, or `MetadataImages.csv`. Nothing is
  exported when no image is found.

Modules:

| file | module | contents |
|---|---|---|
| `wrappers.dfy` | `Wrappers` | `Option` |
| `strings.dfy` | `Strings` | ASCII `strip`, `isupper`, `upper`, `join`, and `split` as the inverse of `join` |
| `ordered_maps.dfy` | `OrderedMaps` | Python dictionaries as association lists: lookup, assignment, `update`, `dict(pairs)`, and the key order each produces |
| `isa_import.dfy` | `IsaImport` | row classification, the row fold, `extract_metadata_from_xlsx`, `apply_metadata`, the import script's outcome |
| `isa_import_properties.dfy` | `IsaImportProperties` | what the import promises |
| `image_export.dfy` | `ImageExport` | `extract_image_metadata` as loops, `splitext`, the image list, the file name, the export script's outcome |
| `export_table.dfy` | `ExportTable` | the column order of the written table, taken as an assumption about the table library |
| `image_export_properties.dfy` | `ImageExportProperties` | what the export promises |

The import is modelled in two stages. `IsaImport.Classify` reads one row on its
own as a `Header(title)`, an `Entry(key, value)` or `Blank`. `IsaImport.Step`
then applies that reading to the fold's cursor. The cursor holds the metadata
and the namespace open in the current sheet. This is the same decision the
source makes in one `if`/`elif` (lines 31-38). Splitting it lets the fold
lemmas be stated over readings without re-deriving the string functions.

Python dictionaries are sequences of pairs. Assigning a key that is present
replaces its value in place. Assigning a new key appends it. This gives
`dict` iteration order and last-write-wins.

Three behaviours of the import are easy to misread; the model keeps them
as the code has them:

- A repeated header in the same sheet resets its namespace's record
  (`metadata[namespace] = {}`, line 33); it does not merge into it. The keys
  gathered under its earlier occurrence are lost. The namespace keeps its
  original position.
- The header test is Python's `isupper`: at least one cased character and no
  lower-case one. `"GENERAL 2"` and `"A-1"` are headers; `"123"` and `"!!"`
  are not.
- The import annotates only the first of the given ids (line 75).

## Model

| member | source | states |
|---|---|---|
| Strings.Trim | ISAImport/ISA_Import.py:31 | `strip()` leaves no whitespace at either end, never lengthens, and gives "" exactly for an all-whitespace cell |
| Strings.TrimPadded | ISAImport/ISA_Import.py:31 | `strip()` of a stripped core padded with any whitespace gives back exactly that core |
| Strings.TrimStripped | ISAImport/ISA_Import.py:36 | stripping an already stripped cell changes nothing |
| Strings.IsUpperStrChars | ISAImport/ISA_Import.py:31 | `isupper` holds exactly when some character is an upper-case letter and none is a lower-case letter |
| Strings.IsUpperStr | ISAImport/ISA_Import.py:31 | no contract of its own; Strings.IsUpperStrChars states it in both directions |
| Strings.UpperIsUpper | ISAImport/ISA_Import.py:32 | the upper-cased sheet name has no lower-case letter, and upper-casing is idempotent |
| Strings.UpperChar | ISAImport/ISA_Import.py:32 | a lower-case letter becomes the upper-case letter at the same place in the alphabet; every other character is kept |
| Strings.Upper | ISAImport/ISA_Import.py:32 | `upper()` keeps the length and upper-cases letter by letter, leaving every other character as it is |
| Strings.Join | ISAImport/ISA_Import.py:38 | the join of no cells is "", of one cell is that cell, and otherwise starts with the first cell |
| Strings.SplitJoin | ISAImport/ISA_Import.py:38 | when no item holds the separator's first character, splitting the `", "`-join gives back the items, the empty ones included |
| OrderedMaps.Set | ISAImport/ISA_Import.py:38 | dictionary assignment: the key maps to the new value, other keys keep theirs, a present key keeps its position, a new key is appended, keys stay unique |
| OrderedMaps.UpdateAll | ImageToFile/ImageToExcel.py:41 | `update`: the keys are the union, the dictionary stays a dictionary, and the old keys keep their order at the front |
| OrderedMaps.AddNew | ImageToFile/ImageToExcel.py:41 | the elements already present keep their places, every key ends up present, none twice |
| OrderedMaps.UpdateAllKeys | ImageToFile/ImageToExcel.py:41 | after `update` the old keys keep their order and each new key follows at its first assignment |
| OrderedMaps.AddNewFirstAppearances | ImageToFile/ImageToExcel.py:27-41 | adding the first appearances of a key list adds the same keys in the same order as adding the whole list |
| OrderedMaps.AddNewAppend | ISAImport/ISA_Import.py:25-33 | adding the keys of two lists in one go is adding those of the first, then those of the second |
| OrderedMaps.UpdateAllGet | ImageToFile/ImageToExcel.py:41 | after `update`, an updated key holds its last assigned value and every other key keeps its old one |
| OrderedMaps.FromPairs | ImageToFile/ImageToExcel.py:27-31 | a dictionary filled pair by pair has unique keys and exactly the assigned keys |
| OrderedMaps.FromPairsKeys | ImageToFile/ImageToExcel.py:27-31 | a dictionary filled pair by pair lists its keys in order of first assignment |
| OrderedMaps.FromPairsGet | ImageToFile/ImageToExcel.py:27-31 | in a dictionary filled pair by pair, each key holds its last assigned value |
| OrderedMaps.LastValueOfDict | ImageToFile/ImageToExcel.py:41 | in a dictionary, the last value of a key is its lookup |
| OrderedMaps.LastValueOfLastPair | ImageToFile/ImageToExcel.py:30-31 | a key assigned by a pair that no later pair reassigns ends with that pair's value |
| OrderedMaps.UpdateAllAppend | ImageToFile/ImageToExcel.py:28-31 | updating with `a + b` is updating with `a`, then with `b` |
| OrderedMaps.MapValues | ImageToFile/ImageToExcel.py:41 | mapping the values keeps the keys in order and keeps them unique |
| OrderedMaps.MapValuesGet | ImageToFile/ImageToExcel.py:41 | each lookup in the mapped dictionary is the mapped lookup of the original |
| OrderedMaps.UniqueKeysSize | ImageToFile/ImageToExcel.py:33-41 | a dictionary has as many entries as distinct keys |
| IsaImport.Classify | ISAImport/ISA_Import.py:31-37 | no contract of its own; what a row reads as is stated by IsaImportProperties.ClassifyCases, HeaderRow, EntryRow and BlankFirstCell |
| IsaImport.FirstCell | ISAImport/ISA_Import.py:31 | no contract of its own; IsaImportProperties.HeaderRow, EntryRow and BlankFirstCell state that a row is read by its first cell |
| IsaImport.RestCells | ISAImport/ISA_Import.py:36 | no contract of its own; IsaImportProperties.EntryRow states that the value is built from the cells after the first |
| IsaImport.TrimAll | ISAImport/ISA_Import.py:36 | one cell out per cell in; IsaImport.TrimAllAt states each is stripped in place |
| IsaImport.NamespaceOf | ISAImport/ISA_Import.py:32 | no contract of its own; IsaImportProperties.NamespaceExample and NamespaceInjective state it |
| IsaImport.Step | ISAImport/ISA_Import.py:31-38 | no contract of its own; IsaImport.StepKeepsValid and IsaImportProperties.HeaderResetsRecord, EntryStored and BlankRowIgnored state what one row does |
| IsaImport.Kinds | ISAImport/ISA_Import.py:30-31 | one reading per row, none dropped; IsaImportProperties.ClassifyCases states what each row reads as |
| IsaImport.RunKinds | ISAImport/ISA_Import.py:30-38 | no contract of its own; IsaImport.RunKindsKeepsValid and IsaImportProperties.RunKindsAppend and RunKindsNamespaces state the row loop |
| IsaImport.ImportSheet | ISAImport/ISA_Import.py:25-38 | no contract of its own; the namespace is reset per sheet, as IsaImportProperties.HeaderlessSheetAddsNothing states |
| IsaImport.TrimAllAt | ISAImport/ISA_Import.py:36 | every remaining cell is stripped in place, none dropped, empty ones kept as "" |
| IsaImport.StepKeepsValid | ISAImport/ISA_Import.py:31-38 | after any row, the open namespace has a record and every record is a dictionary |
| IsaImport.RunKindsKeepsValid | ISAImport/ISA_Import.py:30-38 | the same holds after any number of rows |
| IsaImport.ExtractMetadata | ISAImport/ISA_Import.py:20-41 | the result has unique namespaces, and unique keys within each namespace |
| IsaImport.ApplyMetadata | ISAImport/ISA_Import.py:43-50 | one annotation per namespace, in the dictionary's order; each carries its namespace's record as its pairs; no two share a namespace |
| IsaImport.MetadataOf | ISAImport/ISA_Import.py:39-41 | a file that cannot be decoded yields an empty dictionary, and any result is well formed |
| IsaImport.RunImport | ISAImport/ISA_Import.py:71-99 | no ids, an unresolved object, a missing file, no metadata, or annotations for the first id only, each exactly in its own case; an unresolved object is reported with its type and the first id |
| IsaImportProperties.ClassifyCases | ISAImport/ISA_Import.py:31-37 | a row is a header exactly when its stripped first cell has an upper-case letter and no lower-case one; it is blank exactly when its first cell is all whitespace; an entry's key is the non-empty stripped first cell |
| IsaImportProperties.HeaderRow | ISAImport/ISA_Import.py:31-32 | a row starting with a stripped upper-case title is a header with that title, whatever follows |
| IsaImportProperties.EntryRow | ISAImport/ISA_Import.py:31-38 | a row whose stripped first cell is non-empty and not upper-case is an entry keyed by that stripped cell, whatever whitespace surrounds it, valued by the join of its stripped remaining cells |
| IsaImportProperties.KeyEntryRow | ISAImport/ISA_Import.py:35-38 | a row starting with an already stripped key is an entry of exactly that key |
| IsaImportProperties.EntryValue | ISAImport/ISA_Import.py:35-38 | a key and one value read as the entry of that key with the value stripped |
| IsaImportProperties.TrimAllStripped | ISAImport/ISA_Import.py:36 | cells that are already stripped come through the value cleanup unchanged |
| IsaImportProperties.BlankFirstCell | ISAImport/ISA_Import.py:31-37 | a row whose first cell is empty or whitespace is blank, whatever its other cells hold |
| IsaImportProperties.NoUpperNoHeader | ISAImport/ISA_Import.py:31 | a first cell without an upper-case letter never opens a section |
| IsaImportProperties.DigitsAreNoHeader | ISAImport/ISA_Import.py:31 | `"123"` is a data key, not a header |
| IsaImportProperties.UpperKeyIsHeader | ISAImport/ISA_Import.py:31 | an upper-case data key such as `"DOI"` opens a section |
| IsaImportProperties.PaddedHeader | ISAImport/ISA_Import.py:31-32 | whitespace around a header is ignored by the test and dropped from the title |
| IsaImportProperties.NamespaceExample | ISAImport/ISA_Import.py:32 | sheet `Investigation` with header `GENERAL` gives the namespace `ARC:ISA:INVESTIGATION:GENERAL` |
| IsaImportProperties.NamespaceInjective | ISAImport/ISA_Import.py:32 | within a sheet, two headers share a namespace exactly when their titles are equal |
| IsaImportProperties.RunKindsAppend | ISAImport/ISA_Import.py:30-38 | folding `a + b` is folding `a`, then `b` |
| IsaImportProperties.RowsBeforeHeaderIgnored | ISAImport/ISA_Import.py:28-34 | rows before any header change nothing and open no namespace |
| IsaImportProperties.LeadingRowsIgnored | ISAImport/ISA_Import.py:28-38 | a sheet imports the same with or without its leading header-less rows |
| IsaImportProperties.HeaderlessSheetAddsNothing | ISAImport/ISA_Import.py:25-28 | the open namespace does not carry over: a sheet without a header adds nothing |
| IsaImportProperties.HeaderResetsRecord | ISAImport/ISA_Import.py:32-33 | a header opens its namespace with an empty record; a namespace met before keeps its position and loses its keys; other namespaces are untouched |
| IsaImportProperties.BlankRowIgnored | ISAImport/ISA_Import.py:35-37 | a row whose stripped first cell is empty changes nothing |
| IsaImportProperties.EntryStored | ISAImport/ISA_Import.py:38 | an entry stores its value under its key; a present key keeps its place, a new key is appended; other keys and namespaces are untouched |
| IsaImportProperties.EmptyCellKept | ISAImport/ISA_Import.py:36-38 | empty cells are kept: a key, a value and an empty cell store the stripped value followed by `", "`, so `["Title", "My Study", ""]` stores `"My Study, "` |
| IsaImportProperties.EntryValueSplits | ISAImport/ISA_Import.py:36-38 | when no cell holds a comma, splitting the stored value at `", "` gives back the stripped cells, one separator per cell after the first |
| IsaImportProperties.StepNamespaces | ISAImport/ISA_Import.py:31-38 | only a header adds a namespace |
| IsaImportProperties.RunKindsNamespaces | ISAImport/ISA_Import.py:30-38 | a sheet adds exactly the namespaces of its headers |
| IsaImportProperties.ExtractNamespaces | ISAImport/ISA_Import.py:20-41 | the result has a namespace exactly for each header of each sheet |
| IsaImportProperties.RunKindsKeys | ISAImport/ISA_Import.py:30-38 | a sheet keeps the namespaces already present in their places and appends each header's namespace at its first occurrence; a repeated header moves nothing |
| IsaImportProperties.ExtractKeys | ISAImport/ISA_Import.py:20-41 | the result lists its namespaces in order of first header, sheet after sheet |
| IsaImportProperties.ImportAnnotationOrder | ISAImport/ISA_Import.py:20-50 | the annotations created for a workbook carry its namespaces in order of first header, sheet after sheet |
| IsaImportProperties.NewSection | ISAImport/ISA_Import.py:32-33 | a header with a new namespace appends it with an empty record and opens it |
| IsaImportProperties.NewKey | ISAImport/ISA_Import.py:38 | a new key under the last namespace is appended to its record |
| IsaImportProperties.SectionWithEntry | ISAImport/ISA_Import.py:30-38 | a new header and one entry add one namespace holding just that entry |
| IsaImportProperties.SecondSection | ISAImport/ISA_Import.py:30-38 | a second section with another title is appended after the first |
| IsaImportProperties.TwoSections | ISAImport/ISA_Import.py:25-38 | a sheet reading as two sections gives two namespaces, in header order, each with its own entry |
| ImageExport.FixedRow | ImageToFile/ImageToExcel.py:33-40 | the fixed row has exactly the six fixed columns, in order, none repeated |
| ImageExport.ImageRow | ImageToFile/ImageToExcel.py:27-41 | no contract of its own; ImageExport.ImageRowContents and ImageRowColumns state the row |
| ImageExport.PairsOf | ImageToFile/ImageToExcel.py:28-31 | no contract of its own; ImageExportProperties.OtherKindIgnored states that any other kind of annotation contributes nothing |
| ImageExport.MapPairs | ImageToFile/ImageToExcel.py:27-31 | no contract of its own; ImageExportProperties.MapPairsAppend and OtherKindIgnored, and ImageExport.CollectKeyValues, state the walk over the annotations |
| ImageExport.ImageRowColumns | ImageToFile/ImageToExcel.py:27-41 | the row's columns are the six fixed ones, then each annotation key not among them, in order of first assignment |
| ImageExport.ImageRowContents | ImageToFile/ImageToExcel.py:27-41 | a row has unique columns, starts with the six fixed ones, has exactly the fixed and annotation keys, the new ones after the fixed ones in order of first assignment, holds each annotation key's last value, and keeps every other fixed value |
| ImageExport.AssignPairs | ImageToFile/ImageToExcel.py:30-31 | the inner loop assigns every pair of one annotation, in order |
| ImageExport.CollectKeyValues | ImageToFile/ImageToExcel.py:27-31 | the collected dictionary has exactly the keys of the map annotations' pairs, each with its last value |
| ImageExport.BuildRow | ImageToFile/ImageToExcel.py:20-41 | the loop body builds the image's row |
| ImageExport.ExtractImageMetadata | ImageToFile/ImageToExcel.py:17-43 | one row per image, in order, none dropped |
| ImageExport.RFind | ImageToFile/ImageToExcel.py:90 | the index of the last occurrence of a character, or -1 when there is none |
| ImageExport.SplitextRoot | ImageToFile/ImageToExcel.py:90 | the root is a prefix of the name; what it drops is a dot followed by no further dot or slash |
| ImageExport.CollectImages | ImageToFile/ImageToExcel.py:62-72 | no ids give no images, and image ids give at most one image each |
| ImageExport.Found | ImageToFile/ImageToExcel.py:64-72 | no contract of its own; ImageExportProperties.AllDatasetsResolve, AllImagesResolve and UnresolvedIdSkipped state what one id contributes |
| ImageExport.OutputFilename | ImageToFile/ImageToExcel.py:84-93 | a dataset export is named `<dataset name>.csv`, or `MetadataImages.csv` when the first id is no dataset; an image export is named after the root of the single image's name, or `MetadataImages.csv` for any other number of images; the name always ends in `.csv` |
| ImageExport.RunExport | ImageToFile/ImageToExcel.py:62-93 | nothing is exported exactly when no image is found; otherwise one row per image, in order, and the file named from the first id and the images |
| ImageExportProperties.RowHasFixedKeys | ImageToFile/ImageToExcel.py:33-40 | every row has the six fixed columns |
| ImageExportProperties.RowWidth | ImageToFile/ImageToExcel.py:33-41 | a row has one column per distinct key among the fixed and annotation keys |
| ImageExportProperties.MapPairsAppend | ImageToFile/ImageToExcel.py:28-31 | the pairs of concatenated annotation lists are the pairs of one list, then the other |
| ImageExportProperties.OtherKindIgnored | ImageToFile/ImageToExcel.py:28-29 | an annotation that is not a map annotation, wherever it sits, leaves the row as it is |
| ImageExportProperties.UnannotatedImage | ImageToFile/ImageToExcel.py:27-42 | an image without map annotations still gets a row, holding exactly the six fixed columns |
| ImageExportProperties.LastWriteWins | ImageToFile/ImageToExcel.py:30-41 | a key that no later pair reassigns holds the value of its last pair |
| ImageExportProperties.FixedColumnOverridden | ImageToFile/ImageToExcel.py:33-41 | a map annotation setting one fixed column replaces that column's value and leaves the row at six columns |
| ImageExportProperties.ImageNameOverridden | ImageToFile/ImageToExcel.py:34-41 | a map annotation setting `ImageName` replaces the image's name and adds no column |
| ImageExportProperties.RootWithoutDot | ImageToFile/ImageToExcel.py:90 | a name without a dot is its own root |
| ImageExportProperties.RFindLast | ImageToFile/ImageToExcel.py:90 | the last occurrence of a character is found when nothing after it repeats it |
| ImageExportProperties.RootOfStemExt | ImageToFile/ImageToExcel.py:90 | `stem.ext` loses exactly `.ext` |
| ImageExportProperties.RootOfPathStemExt | ImageToFile/ImageToExcel.py:90 | `dir/stem.ext` loses exactly `.ext`, whatever dots the directory holds |
| ImageExportProperties.RootOfDotfile | ImageToFile/ImageToExcel.py:90 | leading dots are no extension: `.bashrc` keeps its name |
| ImageExportProperties.RootOfPathDotfile | ImageToFile/ImageToExcel.py:90 | leading dots count from the start of the last path component: `dir/.bashrc` keeps its name whatever the directory holds |
| ImageExportProperties.RootOfDottedDirectory | ImageToFile/ImageToExcel.py:90 | a dot in a directory name is no extension |
| ImageExportProperties.SingleImageFilename | ImageToFile/ImageToExcel.py:88-91 | exporting one image named `stem.ext` writes `stem.csv` |
| ImageExportProperties.CollectImagesAppend | ImageToFile/ImageToExcel.py:63-72 | the images of two id lists are the images of the first, then of the second |
| ImageExportProperties.UnresolvedIdSkipped | ImageToFile/ImageToExcel.py:63-72 | an id that resolves to nothing is skipped silently; the other ids keep their images and order |
| ImageExportProperties.AllImagesResolve | ImageToFile/ImageToExcel.py:69-72 | when every image id resolves, there is one image per id, in id order |
| ImageExportProperties.NothingResolves | ImageToFile/ImageToExcel.py:62-76 | when no id resolves there are no images, so nothing is exported |
| ImageExportProperties.AllDatasetsResolve | ImageToFile/ImageToExcel.py:63-67 | when every dataset id resolves, the images are the datasets' children in id order |
| ImageExportProperties.FixedColumnsFirst | ImageToFile/ImageToExcel.py:78-79 | the written table starts with the six fixed columns, in order |
| ExportTable.Columns | ImageToFile/ImageToExcel.py:79 | the table's columns are exactly the keys of all rows, none repeated |
| ExportTable.FirstRowColumnsFirst | ImageToFile/ImageToExcel.py:79 | the first row's keys come first, in that row's order |

## Left out

- Workbook decoding with pandas (`pd.ExcelFile`, `xls.parse`, `dtype=str`, `fillna`) is not modelled. A workbook is a list of sheets already decoded to strings, with missing cells as "".
- `IsaImport.MetadataOf`: does not model the broad `except` of lines 39-41 when a library failure comes after some rows were read. Such a partial result depends on exceptions the model cannot see. Only a file that fails to decode before any sheet is read is modelled, as an empty dictionary.
- The OMERO gateway and script plumbing are parameters or left out: `BlitzGateway`, `getObject`, `getFileInChunks`, `MapAnnotationWrapper.save`, `linkAnnotation`, `setOutput`, `closeSession`. Object and file lookups are functions passed in. Creating and linking annotations is represented by the list of annotations to create.
- `int(params["File_Annotation"])` (line 69 of the import) is not modelled; the file id is an integer parameter.
- DataFrame assembly, `to_csv`, `tempfile` and uploading the file are library behaviour and I/O. `ExportTable` states the table's column order (every key of every row, first appearance first) as an assumption about the library, not as something derived from it.
- `Strings.Trim`, `Strings.IsUpperStr`, `Strings.Upper`: restricted to ASCII. Python's `strip`, `isupper` and `upper` follow Unicode, which is not modelled.
- `ImageExport.SplitextRoot`: models POSIX `os.path.splitext` only, with `/` as the separator.
- `ImageExport.DataType`: holds only the two values the script offers. Another value would leave the file name unbound in the source.
- `ImageExport.ImageRow`: the image's attributes are taken as given values; `getName` and `getSize*` are server calls.
- `IsaImportProperties.TwoSections`: states the two-section sheet through the rows' readings. The literal four-row instance follows from `HeaderRow` and `EntryValue` for each row and is not stated as one lemma.

=== FILE: export_table.dfy ===
/**
  The column order of the table the exported rows are written as. A table
  built from a list of dictionaries takes as columns every key of every row,
  in order of first appearance. This is the behaviour of the table library
  the export relies on, taken here as an assumption about that library,
  not derived from its code.
 */
module ExportTable {
  import opened OrderedMaps

  /** Every key of every row. */
  function AllKeys<V>(rows: seq<Assoc<string, V>>): set<string>
    decreases |rows|
  {
    if |rows| == 0 then {}
    else AllKeys(rows[..|rows| - 1]) + KeySet(rows[|rows| - 1])
  }

  /** The table's columns: the keys of the rows, first appearance first. */
  function Columns<V>(rows: seq<Assoc<string, V>>): (cols: seq<string>)
    ensures Distinct(cols)
    ensures forall c :: c in cols <==> c in AllKeys(rows)
    decreases |rows|
  {
    if |rows| == 0 then []
    else
      var last := rows[|rows| - 1];
      KeySetIndex(last);
      AddNew(Columns(rows[..|rows| - 1]), Keys(last))
  }

  /** Added to no columns, a list of distinct keys is kept as it is. */
  lemma {:induction false} AddNewToEmpty(keys: seq<string>)
    requires Distinct(keys)
    ensures AddNew([], keys) == keys
    decreases |keys|
  {
    if |keys| > 0 {
      var init := keys[..|keys| - 1];
      AddNewToEmpty(init);
      assert keys[|keys| - 1] !in init;
      assert init + [keys[|keys| - 1]] == keys;
    }
  }

  /** The first row's columns come first, in that row's order; later rows
      only add columns after them. */
  lemma {:induction false} FirstRowColumnsFirst<V>(rows: seq<Assoc<string, V>>)
    requires |rows| > 0 && UniqueKeys(rows[0])
    ensures |Columns(rows)| >= |rows[0]| && Columns(rows)[..|rows[0]|] == Keys(rows[0])
    decreases |rows|
  {
    if |rows| == 1 {
      KeysDistinct(rows[0]);
      AddNewToEmpty(Keys(rows[0]));
      assert rows[..0] == [];
    } else {
      var init := rows[..|rows| - 1];
      assert init[0] == rows[0];
      FirstRowColumnsFirst(init);
      var prev := Columns(init);
      assert Columns(rows)[..|prev|] == prev;
      assert Columns(rows)[..|rows[0]|] == prev[..|rows[0]|];
    }
  }
}

=== FILE: image_export.dfy ===
/**
  The image metadata export: one row per image, holding six fixed columns
  followed by the key/value pairs of the image's map annotations, and the
  name of the CSV file the rows are written to.
 */
module ImageExport {
  import opened Wrappers
  import opened OrderedMaps

  /** An annotation linked to an image: a key-value (map) annotation with its
      pairs in order, or an annotation of any other kind. */
  datatype Annotation = KeyValues(pairs: seq<(string, string)>) | OtherKind

  datatype Image = Image(name: string, sizeX: int, sizeY: int, sizeZ: int, sizeC: int, sizeT: int,
                         annotations: seq<Annotation>)

  /** A table cell: the image name and annotation values are text, the sizes
      are integers. */
  datatype Cell = Text(text: string) | Number(number: int)

  function AsText(s: string): Cell {
    Text(s)
  }

  /** One row of the table: column name -> cell, in insertion order. */
  type Row = Assoc<string, Cell>

  const FixedKeys: seq<string> := ["ImageName", "PixelSizeX", "PixelSizeY", "PixelSizeZ", "Channels", "TimeAxis"]

  /** The six columns every row starts with. */
  function FixedRow(img: Image): (r: Row)
    ensures Keys(r) == FixedKeys
    ensures UniqueKeys(r)
  {
    FixedKeysDistinct();
    var r: Row := [ ("ImageName", Text(img.name)),
      ("PixelSizeX", Number(img.sizeX)),
      ("PixelSizeY", Number(img.sizeY)),
      ("PixelSizeZ", Number(img.sizeZ)),
      ("Channels", Number(img.sizeC)),
      ("TimeAxis", Number(img.sizeT)) ];
    DistinctKeysUnique(r);
    r
  }

  lemma FixedKeysDistinct()
    ensures forall i, j :: 0 <= i < j < |FixedKeys| ==> FixedKeys[i] != FixedKeys[j]
  {
    assert |FixedKeys[0]| == 9 && |FixedKeys[4]| == 8 && |FixedKeys[5]| == 8;
    assert |FixedKeys[1]| == 10 && |FixedKeys[2]| == 10 && |FixedKeys[3]| == 10;
    assert FixedKeys[1][9] == 'X' && FixedKeys[2][9] == 'Y' && FixedKeys[3][9] == 'Z';
    assert FixedKeys[4][0] == 'C' && FixedKeys[5][0] == 'T';
  }

  /** The pairs a single annotation contributes: its own for a map
      annotation, none for any other kind. */
  function PairsOf(ann: Annotation): seq<(string, string)> {
    match ann
    case KeyValues(pairs) => pairs
    case OtherKind => []
  }

  /** Every pair the image's annotations assign, in the order the loops meet
      them. */
  function MapPairs(anns: seq<Annotation>): seq<(string, string)>
    decreases |anns|
  {
    if |anns| == 0 then []
    else MapPairs(anns[..|anns| - 1]) + PairsOf(anns[|anns| - 1])
  }

  /** The row of one image: the fixed columns, updated with the image's
      key-value dictionary, every value as text. */
  function ImageRow(img: Image): Row {
    UpdateAll(FixedRow(img), MapValues(FromPairs(MapPairs(img.annotations)), AsText))
  }

  /** What an image's row holds. It has no repeated column and starts with
      the six fixed columns; its columns are the fixed ones and the
      annotation keys; an annotation key takes the text of its last
      assignment, even when it names a fixed column; every other fixed column
      keeps the image's attribute. The annotation keys that are not fixed
      follow the fixed columns in order of first assignment. */
  lemma ImageRowContents(img: Image)
    ensures var r := ImageRow(img);
            && UniqueKeys(r)
            && |r| >= |FixedKeys| && Keys(r)[..|FixedKeys|] == FixedKeys
            && KeySet(r) == KeySet(FixedRow(img)) + KeySet(MapPairs(img.annotations))
            && (forall k :: k in KeySet(MapPairs(img.annotations)) ==>
                  Get(r, k) == Some(Text(LastValue(MapPairs(img.annotations), k).value)))
            && (forall k :: k !in KeySet(MapPairs(img.annotations)) ==> Get(r, k) == Get(FixedRow(img), k))
            && Keys(r) == AddNew(FixedKeys, Keys(MapPairs(img.annotations)))
  {
    ImageRowColumns(img);
    var pairs := MapPairs(img.annotations);
    var kv := MapValues(FromPairs(pairs), AsText);
    FromPairsGet(pairs);
    MapValuesGet(FromPairs(pairs), AsText);
    UpdateAllGet(FixedRow(img), kv);
    forall k | k in KeySet(kv) ensures LastValue(kv, k) == Get(kv, k) {
      LastValueOfDict(kv, k);
    }
  }

  /** The row's columns: the six fixed ones, then each annotation key not
      among them, at its first assignment. This is the order the columns are
      written in. */
  lemma ImageRowColumns(img: Image)
    ensures Keys(ImageRow(img)) == AddNew(FixedKeys, Keys(MapPairs(img.annotations)))
  {
    var pairs := MapPairs(img.annotations);
    UpdateAllKeys(FixedRow(img), MapValues(FromPairs(pairs), AsText));
    FromPairsKeys(pairs);
    AddNewFirstAppearances(FixedKeys, Keys(pairs));
  }

  lemma MapPairsStep(anns: seq<Annotation>, i: nat)
    requires i < |anns|
    ensures MapPairs(anns[..i + 1]) == MapPairs(anns[..i]) + PairsOf(anns[i])
  {
    assert anns[..i + 1][..i] == anns[..i];
  }

  /** The innermost loop: `kv_pairs[key] = value` for each pair of one map
      annotation, in order. */
  method AssignPairs(kv0: Assoc<string, string>, pairs: seq<(string, string)>) returns (kv: Assoc<string, string>)
    ensures kv == UpdateAll(kv0, pairs)
  {
    kv := kv0;
    var j := 0;
    assert pairs[..0] == [];
    while j < |pairs|
      invariant 0 <= j <= |pairs|
      invariant kv == UpdateAll(kv0, pairs[..j])
    {
      assert pairs[..j + 1] == pairs[..j] + [(pairs[j].0, pairs[j].1)];
      UpdateAllSnoc(kv0, pairs[..j], pairs[j].0, pairs[j].1);
      kv := Set(kv, pairs[j].0, pairs[j].1);
      j := j + 1;
    }
    assert pairs[..j] == pairs;
  }

  /** The loops of `extract_image_metadata` that build `kv_pairs`: every pair
      of every map annotation is assigned in turn. The result is a dictionary
      of exactly the assigned keys, each holding its last assigned value. */
  method CollectKeyValues(anns: seq<Annotation>) returns (kv: Assoc<string, string>)
    ensures UniqueKeys(kv)
    ensures KeySet(kv) == KeySet(MapPairs(anns))
    ensures forall k :: Get(kv, k) == LastValue(MapPairs(anns), k)
    ensures kv == FromPairs(MapPairs(anns))
  {
    kv := [];
    var i := 0;
    while i < |anns|
      invariant 0 <= i <= |anns|
      invariant kv == UpdateAll([], MapPairs(anns[..i]))
    {
      MapPairsStep(anns, i);
      if anns[i].KeyValues? {
        UpdateAllAppend([], MapPairs(anns[..i]), anns[i].pairs);
        kv := AssignPairs(kv, anns[i].pairs);
      } else {
        assert MapPairs(anns[..i]) + PairsOf(anns[i]) == MapPairs(anns[..i]);
      }
      i := i + 1;
    }
    assert anns[..i] == anns;
    FromPairsGet(MapPairs(anns));
  }

  /** The body of the outer loop: the image's dictionary, then its row. */
  method BuildRow(image: Image) returns (row: Row)
    ensures row == ImageRow(image)
  {
    var kv := CollectKeyValues(image.annotations);
    row := UpdateAll(FixedRow(image), MapValues(kv, AsText));
  }

  /** `extract_image_metadata`: one row per image, in the order of the images,
      none dropped. */
  method ExtractImageMetadata(images: seq<Image>) returns (data: seq<Row>)
    ensures |data| == |images|
    ensures forall i :: 0 <= i < |images| ==> data[i] == ImageRow(images[i])
  {
    data := [];
    var i := 0;
    while i < |images|
      invariant 0 <= i <= |images|
      invariant |data| == i
      invariant forall n :: 0 <= n < i ==> data[n] == ImageRow(images[n])
    {
      var row := BuildRow(images[i]);
      data := data + [row];
      i := i + 1;
    }
  }

  /** `s.rfind(c)`: the index of the last `c` in `s`, or -1. */
  function RFind(s: string, c: char): (r: int)
    ensures -1 <= r < |s|
    ensures r >= 0 ==> s[r] == c
    ensures forall i :: r < i < |s| ==> s[i] != c
  {
    if |s| == 0 then -1
    else if s[|s| - 1] == c then |s| - 1
    else RFind(s[..|s| - 1], c)
  }

  /** Some character of `s[lo..hi]` is not a dot. */
  predicate HasNonDot(s: string, lo: int, hi: int)
    requires 0 <= lo <= hi <= |s|
  {
    exists i :: lo <= i < hi && s[i] != '.'
  }

  /** `os.path.splitext(p)[0]` with POSIX separators: everything before the
      last dot of the final path component, unless that component has no
      dot or only dots before its last dot. The root is a prefix of `p`, and
      what it drops is a dot followed by neither a dot nor a slash. */
  function SplitextRoot(p: string): (root: string)
    ensures |root| <= |p| && root == p[..|root|]
    ensures root != p ==> p[|root|] == '.' && '.' !in p[|root| + 1..] && '/' !in p[|root|..]
  {
    var sep := RFind(p, '/');
    var dot := RFind(p, '.');
    if dot > sep && HasNonDot(p, sep + 1, dot) then p[..dot]
    else p
  }

  /** The kinds of input the export script accepts. */
  datatype DataType = DatasetType | ImageType

  /** A dataset with its child images. */
  datatype Dataset = Dataset(name: string, children: seq<Image>)

  const CsvSuffix: string := ".csv"
  const DefaultFilename: string := "MetadataImages.csv"

  /** The images one id contributes: a dataset's children or the image
      itself; an id that does not resolve contributes nothing. */
  function Found(dataType: DataType, id: int,
                 datasetOf: int -> Option<Dataset>, imageOf: int -> Option<Image>): seq<Image>
  {
    match dataType
    case DatasetType => (match datasetOf(id) case Some(d) => d.children case None => [])
    case ImageType => (match imageOf(id) case Some(img) => [img] case None => [])
  }

  /** The image list of the export script, gathered id by id. No ids give
      no images, and an image id gives at most one image. */
  function CollectImages(dataType: DataType, ids: seq<int>,
                         datasetOf: int -> Option<Dataset>, imageOf: int -> Option<Image>): (images: seq<Image>)
    ensures |ids| == 0 ==> images == []
    ensures dataType == ImageType ==> |images| <= |ids|
    decreases |ids|
  {
    if |ids| == 0 then []
    else CollectImages(dataType, ids[..|ids| - 1], datasetOf, imageOf) + Found(dataType, ids[|ids| - 1], datasetOf, imageOf)
  }

  /** The file name of the export: a CSV file named after the first dataset,
      after the one image without its extension, or the default name. */
  function OutputFilename(dataType: DataType, firstDataset: Option<Dataset>, images: seq<Image>): (f: string)
    ensures |f| >= |CsvSuffix| && f[|f| - |CsvSuffix|..] == CsvSuffix
    ensures dataType == DatasetType && firstDataset.Some? ==> f == firstDataset.value.name + ".csv"
    ensures dataType == DatasetType && firstDataset.None? ==> f == "MetadataImages.csv"
    ensures dataType == ImageType && |images| == 1 ==> f == SplitextRoot(images[0].name) + ".csv"
    ensures dataType == ImageType && |images| != 1 ==> f == "MetadataImages.csv"
  {
    match dataType
    case DatasetType =>
      if firstDataset.Some? then firstDataset.value.name + CsvSuffix else DefaultFilename
    case ImageType =>
      if |images| == 1 then SplitextRoot(images[0].name) + CsvSuffix else DefaultFilename
  }

  /** What the export script reports: nothing to export, or the rows and the
      name of the file they are written to. */
  datatype ExportResult = NoImagesFound | Exported(filename: string, rows: seq<Row>)

  /** `run_script` of the export without the server: `datasetOf` and
      `imageOf` stand for the lookups. Nothing is exported when no image is
      found; otherwise there is one row per image found, in order, and the
      file is named from the first id's dataset or from the images. */
  method RunExport(dataType: DataType, ids: seq<int>,
                   datasetOf: int -> Option<Dataset>, imageOf: int -> Option<Image>) returns (r: ExportResult)
    ensures var images := CollectImages(dataType, ids, datasetOf, imageOf);
            && (r.NoImagesFound? <==> images == [])
            && (r.Exported? ==> |r.rows| == |images|
                                && (forall i :: 0 <= i < |images| ==> r.rows[i] == ImageRow(images[i]))
                                && |ids| > 0
                                && r.filename == OutputFilename(dataType, datasetOf(ids[0]), images))
  {
    var images := CollectImages(dataType, ids, datasetOf, imageOf);
    if images == [] {
      return NoImagesFound;
    }
    var data := ExtractImageMetadata(images);
    var filename := OutputFilename(dataType, datasetOf(ids[0]), images);
    r := Exported(filename, data);
  }
}

=== FILE: image_export_properties.dfy ===
/** What the image export promises, stated over the rows, the file name and
    the table built from them. */
module ImageExportProperties {
  import opened Wrappers
  import opened OrderedMaps
  import opened ImageExport
  import opened ExportTable

  /** Every row has the six fixed columns. */
  lemma RowHasFixedKeys(img: Image)
    ensures forall i :: 0 <= i < |FixedKeys| ==> FixedKeys[i] in KeySet(ImageRow(img))
  {
    ImageRowContents(img);
    FixedRowKeySet(img);
  }

  /** The fixed row's columns are exactly the six fixed keys. */
  lemma FixedRowKeySet(img: Image)
    ensures forall k :: k in KeySet(FixedRow(img)) <==> k in FixedKeys
  {
    KeySetIndex(FixedRow(img));
  }

  /** An annotation key that names a fixed column replaces that column's
      value and adds no column: the row has one column per distinct key
      among the fixed keys and the annotation keys. */
  lemma RowWidth(img: Image)
    ensures |ImageRow(img)| == |KeySet(FixedRow(img)) + KeySet(MapPairs(img.annotations))|
  {
    ImageRowContents(img);
    UniqueKeysSize(ImageRow(img));
  }

  /** Concatenated annotation lists assign their pairs one list after the other. */
  lemma {:induction false} MapPairsAppend(a: seq<Annotation>, b: seq<Annotation>)
    ensures MapPairs(a + b) == MapPairs(a) + MapPairs(b)
    decreases |b|
  {
    if |b| == 0 {
      assert a + b == a;
    } else {
      var ab := a + b;
      var init := b[..|b| - 1];
      assert ab[..|ab| - 1] == a + init;
      assert ab[|ab| - 1] == b[|b| - 1];
      assert MapPairs(ab) == MapPairs(a + init) + PairsOf(b[|b| - 1]);
      MapPairsAppend(a, init);
      assert MapPairs(b) == MapPairs(init) + PairsOf(b[|b| - 1]);
    }
  }

  /** Only map annotations count: an annotation of another kind, wherever it
      sits in the list, leaves the row as it is. */
  lemma OtherKindIgnored(img: Image, a: seq<Annotation>, b: seq<Annotation>)
    requires img.annotations == a + [OtherKind] + b
    ensures ImageRow(img) == ImageRow(img.(annotations := a + b))
  {
    MapPairsAppend(a + [OtherKind], b);
    MapPairsAppend(a, [OtherKind]);
    MapPairsAppend(a, b);
    assert MapPairs([OtherKind]) == [] by {
      assert [OtherKind][..0] == [];
    }
    assert MapPairs(a) + [] == MapPairs(a);
  }

  /** Annotations none of which is a map annotation give no pairs. */
  lemma {:induction false} NoMapPairs(anns: seq<Annotation>)
    requires forall i :: 0 <= i < |anns| ==> anns[i].OtherKind?
    ensures MapPairs(anns) == []
    decreases |anns|
  {
    if |anns| > 0 {
      NoMapPairs(anns[..|anns| - 1]);
    }
  }

  /** An image without map annotations gets exactly the six fixed columns. */
  lemma UnannotatedImage(img: Image)
    requires forall i :: 0 <= i < |img.annotations| ==> img.annotations[i].OtherKind?
    ensures ImageRow(img) == FixedRow(img)
  {
    NoMapPairs(img.annotations);
    var kv: Assoc<string, Cell> := MapValues(FromPairs(MapPairs(img.annotations)), AsText);
    assert kv == [];
  }

  /** Last write wins: when no later pair of the image's map annotations
      assigns key `k`, the row holds the value of the last pair that does. */
  lemma LastWriteWins(img: Image, pre: seq<(string, string)>, k: string, v: string, post: seq<(string, string)>)
    requires MapPairs(img.annotations) == pre + [(k, v)] + post
    requires k !in KeySet(post)
    ensures Get(ImageRow(img), k) == Some(Text(v))
  {
    ImageRowContents(img);
    LastValueOfLastPair(pre, k, v, post);
  }

  lemma SinglePairKeys(k: string, v: string)
    ensures KeySet([(k, v)]) == {k}
  {
    assert [(k, v)][1..] == [];
  }

  lemma ImageNameIsFixed(img: Image)
    ensures "ImageName" in KeySet(FixedRow(img))
  {
    FixedRowKeySet(img);
    assert FixedKeys[0] == "ImageName";
  }

  /** The fixed row has six distinct columns. */
  lemma FixedRowWidth(img: Image)
    ensures |KeySet(FixedRow(img))| == |FixedKeys|
  {
    UniqueKeysSize(FixedRow(img));
  }

  /** A map annotation setting a fixed column replaces that column's value
      and leaves the row at six columns. */
  lemma FixedColumnOverridden(img: Image, k: string, v: string)
    requires k in KeySet(FixedRow(img))
    requires MapPairs(img.annotations) == [(k, v)]
    ensures Get(ImageRow(img), k) == Some(Text(v))
    ensures |ImageRow(img)| == |FixedKeys|
  {
    var none: seq<(string, string)> := [];
    assert none + [(k, v)] + none == [(k, v)];
    LastWriteWins(img, none, k, v, none);
    RowWidth(img);
    SinglePairKeys(k, v);
    FixedRowWidth(img);
    AbsorbedKey(KeySet(FixedRow(img)), KeySet(MapPairs(img.annotations)), k);
  }

  lemma AbsorbedKey(columns: set<string>, added: set<string>, k: string)
    requires k in columns && added == {k}
    ensures |columns + added| == |columns|
  {
    assert columns + added == columns;
  }

  /** A map annotation setting "ImageName" replaces the image's own name and
      leaves the row at six columns. */
  lemma ImageNameOverridden(img: Image, v: string)
    requires MapPairs(img.annotations) == [("ImageName", v)]
    ensures Get(ImageRow(img), "ImageName") == Some(Text(v))
    ensures |ImageRow(img)| == |FixedKeys|
  {
    ImageNameIsFixed(img);
    FixedColumnOverridden(img, "ImageName", v);
  }

  /** A character that does not occur is not found. */
  lemma {:induction false} RFindAbsent(s: string, c: char)
    requires c !in s
    ensures RFind(s, c) == -1
    decreases |s|
  {
    if |s| > 0 {
      assert c !in s[..|s| - 1];
      RFindAbsent(s[..|s| - 1], c);
    }
  }

  /** A name without a dot is its own root. */
  lemma RootWithoutDot(p: string)
    requires '.' !in p
    ensures SplitextRoot(p) == p
  {
    RFindAbsent(p, '.');
  }

  lemma {:induction false} RFindLast(s: string, c: char, t: string)
    requires c !in t
    ensures RFind(s + [c] + t, c) == |s|
    decreases |t|
  {
    var all := s + [c] + t;
    if |t| == 0 {
      assert all[|all| - 1] == c;
    } else {
      assert all[|all| - 1] == t[|t| - 1];
      assert all[..|all| - 1] == s + [c] + t[..|t| - 1];
      assert c !in t[..|t| - 1];
      RFindLast(s, c, t[..|t| - 1]);
    }
  }

  /** A file name with an extension loses the extension: the stem is
      everything before the last dot. */
  lemma RootOfStemExt(stem: string, ext: string)
    requires '/' !in stem && '/' !in ext && '.' !in ext
    requires exists i :: 0 <= i < |stem| && stem[i] != '.'
    ensures SplitextRoot(stem + "." + ext) == stem
  {
    var p := stem + "." + ext;
    RFindLast(stem, '.', ext);
    assert '/' !in p;
    RFindAbsent(p, '/');
    var i :| 0 <= i < |stem| && stem[i] != '.';
    assert p[i] == stem[i];
    assert p[..|stem|] == stem;
  }

  /** Under a directory the same holds: "dir/img.tif" becomes "dir/img",
      whatever dots the directory names hold. */
  lemma RootOfPathStemExt(dir: string, stem: string, ext: string)
    requires '/' !in stem && '/' !in ext && '.' !in ext
    requires exists i :: 0 <= i < |stem| && stem[i] != '.'
    ensures SplitextRoot(dir + "/" + stem + "." + ext) == dir + "/" + stem
  {
    var p := dir + "/" + stem + "." + ext;
    var name := stem + "." + ext;
    assert p == (dir + "/" + stem) + ['.'] + ext;
    RFindLast(dir + "/" + stem, '.', ext);
    assert '/' !in name;
    assert p == dir + ['/'] + name;
    RFindLast(dir, '/', name);
    var i :| 0 <= i < |stem| && stem[i] != '.';
    assert p[|dir| + 1 + i] == stem[i];
    assert p[..|dir| + 1 + |stem|] == dir + "/" + stem;
  }

  /** Leading dots are not an extension: ".bashrc" and "..x" keep their name. */
  lemma RootOfDotfile(dots: string, ext: string)
    requires forall i :: 0 <= i < |dots| ==> dots[i] == '.'
    requires '/' !in dots && '/' !in ext && '.' !in ext
    ensures SplitextRoot(dots + "." + ext) == dots + "." + ext
  {
    var p := dots + "." + ext;
    RFindLast(dots, '.', ext);
    assert '/' !in p;
    RFindAbsent(p, '/');
    assert !HasNonDot(p, 0, |dots|) by {
      forall i | 0 <= i < |dots| ensures p[i] == '.' {
        assert p[i] == dots[i];
      }
    }
  }

  /** Leading dots are counted from the start of the last path component,
      not of the path: "d/.bashrc" keeps its name, however many other
      characters the directory part holds. */
  lemma RootOfPathDotfile(dir: string, dots: string, ext: string)
    requires forall i :: 0 <= i < |dots| ==> dots[i] == '.'
    requires '/' !in dots && '/' !in ext && '.' !in ext
    ensures SplitextRoot(dir + "/" + dots + "." + ext) == dir + "/" + dots + "." + ext
  {
    var p := dir + "/" + dots + "." + ext;
    var name := dots + "." + ext;
    assert p == (dir + "/" + dots) + ['.'] + ext;
    RFindLast(dir + "/" + dots, '.', ext);
    assert '/' !in name;
    assert p == dir + ['/'] + name;
    RFindLast(dir, '/', name);
    assert !HasNonDot(p, |dir| + 1, |dir| + 1 + |dots|) by {
      forall i | |dir| + 1 <= i < |dir| + 1 + |dots| ensures p[i] == '.' {
        assert p[i] == dots[i - |dir| - 1];
      }
    }
  }

  /** A dot in a directory name is not an extension. */
  lemma RootOfDottedDirectory(dir: string, name: string)
    requires '.' !in name && '/' !in name
    ensures SplitextRoot(dir + "/" + name) == dir + "/" + name
  {
    var p := dir + "/" + name;
    RFindLast(dir, '/', name);
    forall i | |dir| < i < |p| ensures p[i] != '.' {
      assert p[i] == name[i - |dir| - 1];
    }
  }

  /** Exporting a single image named `stem.ext` writes `stem.csv`. */
  lemma SingleImageFilename(img: Image, stem: string, ext: string, firstDataset: Option<Dataset>)
    requires img.name == stem + "." + ext
    requires '/' !in stem && '/' !in ext && '.' !in ext
    requires exists i :: 0 <= i < |stem| && stem[i] != '.'
    ensures OutputFilename(ImageType, firstDataset, [img]) == stem + ".csv"
  {
    RootOfStemExt(stem, ext);
  }

  /** The images of concatenated id lists are the images of one list, then
      of the other. */
  lemma {:induction false} CollectImagesAppend(dataType: DataType, a: seq<int>, b: seq<int>,
                                               datasetOf: int -> Option<Dataset>, imageOf: int -> Option<Image>)
    ensures CollectImages(dataType, a + b, datasetOf, imageOf)
         == CollectImages(dataType, a, datasetOf, imageOf) + CollectImages(dataType, b, datasetOf, imageOf)
    decreases |b|
  {
    if |b| == 0 {
      assert a + b == a;
    } else {
      var init := b[..|b| - 1];
      DropLastOfAppend(a, b);
      CollectImagesAppend(dataType, a, init, datasetOf, imageOf);
      var x := CollectImages(dataType, a, datasetOf, imageOf);
      var y := CollectImages(dataType, init, datasetOf, imageOf);
      var found := Found(dataType, b[|b| - 1], datasetOf, imageOf);
      assert (x + y) + found == x + (y + found);
    }
  }

  /** One more id adds that id's images at the end. */
  lemma CollectImagesSnoc(dataType: DataType, ids: seq<int>, id: int,
                          datasetOf: int -> Option<Dataset>, imageOf: int -> Option<Image>)
    ensures CollectImages(dataType, ids + [id], datasetOf, imageOf)
         == CollectImages(dataType, ids, datasetOf, imageOf) + Found(dataType, id, datasetOf, imageOf)
  {
    assert (ids + [id])[..|ids|] == ids;
  }

  /** An id that resolves to nothing is skipped: the images are those of the
      other ids, in their order. */
  lemma UnresolvedIdSkipped(dataType: DataType, a: seq<int>, id: int, b: seq<int>,
                            datasetOf: int -> Option<Dataset>, imageOf: int -> Option<Image>)
    requires Found(dataType, id, datasetOf, imageOf) == []
    ensures CollectImages(dataType, a + [id] + b, datasetOf, imageOf)
         == CollectImages(dataType, a + b, datasetOf, imageOf)
  {
    CollectImagesAppend(dataType, a + [id], b, datasetOf, imageOf);
    CollectImagesSnoc(dataType, a, id, datasetOf, imageOf);
    assert CollectImages(dataType, a, datasetOf, imageOf) + [] == CollectImages(dataType, a, datasetOf, imageOf);
    CollectImagesAppend(dataType, a, b, datasetOf, imageOf);
  }

  /** When every image id resolves, the export has one image per id, in the
      order of the ids. */
  lemma {:induction false} AllImagesResolve(ids: seq<int>, datasetOf: int -> Option<Dataset>, imageOf: int -> Option<Image>)
    requires forall i :: 0 <= i < |ids| ==> imageOf(ids[i]).Some?
    ensures var images := CollectImages(ImageType, ids, datasetOf, imageOf);
            && |images| == |ids|
            && forall i :: 0 <= i < |ids| ==> images[i] == imageOf(ids[i]).value
    decreases |ids|
  {
    if |ids| > 0 {
      AllImagesResolve(ids[..|ids| - 1], datasetOf, imageOf);
    }
  }

  /** When no id resolves there is no image, so nothing is exported. */
  lemma {:induction false} NothingResolves(dataType: DataType, ids: seq<int>,
                                           datasetOf: int -> Option<Dataset>, imageOf: int -> Option<Image>)
    requires forall i :: 0 <= i < |ids| ==> datasetOf(ids[i]).None? && imageOf(ids[i]).None?
    ensures CollectImages(dataType, ids, datasetOf, imageOf) == []
    decreases |ids|
  {
    if |ids| > 0 {
      NothingResolves(dataType, ids[..|ids| - 1], datasetOf, imageOf);
    }
  }

  /** The images of resolved datasets: each dataset's children, one dataset
      after the other. */
  function Children(ds: seq<Dataset>): seq<Image>
    decreases |ds|
  {
    if |ds| == 0 then [] else Children(ds[..|ds| - 1]) + ds[|ds| - 1].children
  }

  /** When every dataset id resolves, the export has the children of the
      datasets in the order of the ids. */
  lemma {:induction false} AllDatasetsResolve(ids: seq<int>, ds: seq<Dataset>,
                                              datasetOf: int -> Option<Dataset>, imageOf: int -> Option<Image>)
    requires |ds| == |ids|
    requires forall i :: 0 <= i < |ids| ==> datasetOf(ids[i]) == Some(ds[i])
    ensures CollectImages(DatasetType, ids, datasetOf, imageOf) == Children(ds)
    decreases |ids|
  {
    if |ids| > 0 {
      AllDatasetsResolve(ids[..|ids| - 1], ds[..|ds| - 1], datasetOf, imageOf);
    }
  }

  lemma FixedPrefixColumns(rows: seq<Row>)
    requires |rows| > 0 && UniqueKeys(rows[0])
    requires |rows[0]| >= |FixedKeys| && Keys(rows[0])[..|FixedKeys|] == FixedKeys
    ensures |Columns(rows)| >= |FixedKeys| && Columns(rows)[..|FixedKeys|] == FixedKeys
  {
    FirstRowColumnsFirst(rows);
    var cols := Columns(rows);
    assert cols[..|FixedKeys|] == cols[..|rows[0]|][..|FixedKeys|];
  }

  /** The table written for a non-empty export starts with the six fixed
      columns, in their order, whatever annotation keys follow. */
  lemma FixedColumnsFirst(images: seq<Image>, rows: seq<Row>)
    requires |images| > 0 && |rows| == |images|
    requires forall i :: 0 <= i < |images| ==> rows[i] == ImageRow(images[i])
    ensures |Columns(rows)| >= |FixedKeys| && Columns(rows)[..|FixedKeys|] == FixedKeys
  {
    assert rows[0] == ImageRow(images[0]);
    ImageRowContents(images[0]);
    FixedPrefixColumns(rows);
  }
}

=== FILE: isa_import.dfy ===
/**
  The ISA workbook import: decoded sheets are folded, row by row, into an
  insertion-ordered dictionary from namespace to an insertion-ordered
  dictionary of key/value strings, and each namespace then becomes one map
  annotation on the target object.

  A row whose stripped first cell is upper-case in Python's `isupper` sense
  opens the namespace `ARC:ISA:<SHEET NAME UPPER-CASED>:<header>` and resets
  its record; any later row of the same sheet that is not a header and has a
  non-empty stripped first cell stores that key with the ", "-join of its stripped remaining cells.
 */
module IsaImport {
  import opened Wrappers
  import opened Strings
  import opened OrderedMaps

  /** One spreadsheet row, every cell already decoded as a string (missing
      cells decoded as ""). */
  type Row = seq<string>

  datatype Sheet = Sheet(name: string, rows: seq<Row>)

  /** What one namespace collects: key -> joined values, in insertion order. */
  type Record = Assoc<string, string>

  /** namespace -> record, in the order the namespaces were first created. */
  type Metadata = Assoc<string, Record>

  const NamespacePrefix: string := "ARC:ISA:"
  const ValueSeparator: string := ", "

  /** `row.iloc[0]`; a row without cells reads as an empty first cell. */
  function FirstCell(row: Row): string {
    if |row| == 0 then "" else row[0]
  }

  /** `row[1:]`. */
  function RestCells(row: Row): seq<string> {
    if |row| == 0 then [] else row[1..]
  }

  /** Every cell stripped, the empty ones kept as "". */
  function TrimAll(cells: seq<string>): (r: seq<string>)
    ensures |r| == |cells|
  {
    if |cells| == 0 then [] else [Trim(cells[0])] + TrimAll(cells[1..])
  }

  /** TrimAll strips each cell in place. */
  lemma {:induction false} TrimAllAt(cells: seq<string>)
    ensures forall i :: 0 <= i < |cells| ==> TrimAll(cells)[i] == Trim(cells[i])
  {
    if |cells| > 0 {
      TrimAllAt(cells[1..]);
      forall i | 0 < i < |cells| ensures TrimAll(cells)[i] == Trim(cells[i]) {
        assert TrimAll(cells)[i] == TrimAll(cells[1..])[i - 1];
      }
    }
  }

  /** How a row reads on its own, before the sheet's cursor is consulted. */
  datatype RowKind =
    | Header(title: string)
    | Entry(key: string, value: string)
    | Blank

  /** A header when the stripped first cell is upper-case; otherwise a blank
      row when the stripped first cell is empty; otherwise an entry whose key
      is the stripped first cell and whose value joins the stripped remaining
      cells with ", ". */
  function Classify(row: Row): RowKind
  {
    var first := Trim(FirstCell(row));
    if IsUpperStr(first) then Header(first)
    else if first == "" then Blank
    else Entry(first, Join(ValueSeparator, TrimAll(RestCells(row))))
  }

  /** `f"ARC:ISA:{sheet_name.upper()}:{header}"`. */
  function NamespaceOf(sheetName: string, title: string): string {
    NamespacePrefix + Upper(sheetName) + ":" + title
  }

  /** Every record of the dictionary is itself a dictionary. */
  ghost predicate WellFormed(md: Metadata) {
    && UniqueKeys(md)
    && forall ns :: ns in KeySet(md) ==> UniqueKeys(Get(md, ns).value)
  }

  /** The fold's state inside one sheet: the metadata so far and the
      namespace opened by the most recent header of this sheet, if any. */
  datatype Cursor = Cursor(metadata: Metadata, namespace: Option<string>)

  ghost predicate Valid(c: Cursor) {
    && WellFormed(c.metadata)
    && (c.namespace.Some? ==> c.namespace.value in KeySet(c.metadata))
  }

  /** One iteration of the row loop, on the row as classified. */
  function Step(sheetName: string, c: Cursor, kind: RowKind): Cursor {
    match kind
    case Header(title) =>
      var ns := NamespaceOf(sheetName, title);
      Cursor(Set(c.metadata, ns, []), Some(ns))
    case Entry(key, value) =>
      if c.namespace.None? then c
      else
        var ns := c.namespace.value;
        var record := Get(c.metadata, ns).GetOr([]);
        Cursor(Set(c.metadata, ns, Set(record, key, value)), c.namespace)
    case Blank => c
  }

  /** Every row of a sheet, classified. */
  function Kinds(rows: seq<Row>): (kinds: seq<RowKind>)
    ensures |kinds| == |rows|
  {
    seq(|rows|, i requires 0 <= i < |rows| => Classify(rows[i]))
  }

  /** The row loop over a sheet's classified rows, first to last. */
  function RunKinds(sheetName: string, c: Cursor, kinds: seq<RowKind>): Cursor
    decreases |kinds|
  {
    if |kinds| == 0 then c
    else Step(sheetName, RunKinds(sheetName, c, kinds[..|kinds| - 1]), kinds[|kinds| - 1])
  }

  /** One sheet: the cursor starts with no namespace, whatever the sheets
      before it left open. */
  function ImportSheet(md: Metadata, sheet: Sheet): Metadata {
    RunKinds(sheet.name, Cursor(md, None), Kinds(sheet.rows)).metadata
  }

  /** A row keeps the cursor valid: the open namespace always has a record,
      and every record stays a dictionary. */
  lemma StepKeepsValid(sheetName: string, c: Cursor, kind: RowKind)
    requires Valid(c)
    ensures Valid(Step(sheetName, c, kind))
  {
    match kind
    case Header(title) =>
      var ns := NamespaceOf(sheetName, title);
      var md := Set(c.metadata, ns, []);
      forall n | n in KeySet(md) ensures UniqueKeys(Get(md, n).value) {
        if n != ns { assert Get(md, n) == Get(c.metadata, n); }
      }
    case Entry(key, value) =>
      if c.namespace.Some? {
        var ns := c.namespace.value;
        var md := Set(c.metadata, ns, Set(Get(c.metadata, ns).value, key, value));
        forall n | n in KeySet(md) ensures UniqueKeys(Get(md, n).value) {
          if n != ns { assert Get(md, n) == Get(c.metadata, n); }
        }
      }
    case Blank =>
  }

  lemma {:induction false} RunKindsKeepsValid(sheetName: string, c: Cursor, kinds: seq<RowKind>)
    requires Valid(c)
    ensures Valid(RunKinds(sheetName, c, kinds))
    decreases |kinds|
  {
    if |kinds| > 0 {
      RunKindsKeepsValid(sheetName, c, kinds[..|kinds| - 1]);
      StepKeepsValid(sheetName, RunKinds(sheetName, c, kinds[..|kinds| - 1]), kinds[|kinds| - 1]);
    }
  }

  /** `extract_metadata_from_xlsx` on an already decoded workbook. Namespaces
      are unique and so are the keys within each namespace. */
  function ExtractMetadata(sheets: seq<Sheet>): (md: Metadata)
    ensures WellFormed(md)
    decreases |sheets|
  {
    if |sheets| == 0 then []
    else
      var prev := ExtractMetadata(sheets[..|sheets| - 1]);
      var sheet := sheets[|sheets| - 1];
      RunKindsKeepsValid(sheet.name, Cursor(prev, None), Kinds(sheet.rows));
      ImportSheet(prev, sheet)
  }

  /** One key-value annotation to create: its namespace and its pairs. */
  datatype MapAnnotation = MapAnnotation(namespace: string, pairs: seq<(string, string)>)

  /** `apply_metadata` without the server: the annotations to create, one per
      namespace, in the dictionary's order. Each carries its namespace's record
      as its pairs, and no two carry the same namespace. */
  function ApplyMetadata(md: Metadata): (anns: seq<MapAnnotation>)
    requires WellFormed(md)
    ensures |anns| == |md|
    ensures forall i :: 0 <= i < |anns| ==> anns[i].namespace == Keys(md)[i]
    ensures forall i :: 0 <= i < |anns| ==> Get(md, anns[i].namespace) == Some(anns[i].pairs)
    ensures forall i, j :: 0 <= i < j < |anns| ==> anns[i].namespace != anns[j].namespace
  {
    UniqueKeysAt(md);
    var anns := seq(|md|, i requires 0 <= i < |md| => MapAnnotation(md[i].0, md[i].1));
    assert forall i :: 0 <= i < |anns| ==> Get(md, anns[i].namespace) == Some(anns[i].pairs) by {
      forall i | 0 <= i < |anns| ensures Get(md, anns[i].namespace) == Some(anns[i].pairs) {
        GetAt(md, i);
      }
    }
    anns
  }

  /** The kinds of object the import script can annotate. */
  datatype ObjectType = Project | Dataset | Screen

  /** What the file annotation's bytes decode to: a workbook, or a failure
      of the decoder before any sheet was read. */
  datatype FileContent = Unreadable | Workbook(sheets: seq<Sheet>)

  /** The status the import script reports; annotations are created only in
      the Imported case. */
  datatype ImportResult =
    | NoIds
    | InvalidObject(objectType: ObjectType, id: int)
    | FileNotFound(fileId: int)
    | NoMetadata
    | Imported(objectType: ObjectType, id: int, annotations: seq<MapAnnotation>)

  /** The metadata a resolved file yields: a decoding failure is caught and
      yields an empty dictionary. */
  function MetadataOf(content: FileContent): (md: Metadata)
    ensures WellFormed(md)
    ensures content.Unreadable? ==> md == []
  {
    match content
    case Unreadable => []
    case Workbook(sheets) => ExtractMetadata(sheets)
  }

  /** `run_script` of the import: only the first id is annotated; it must
      resolve before the file is looked up; nothing is created unless the
      file yields at least one namespace. `objectExists` and `fileOf` stand
      for the server lookups. */
  function RunImport(objectType: ObjectType, ids: seq<int>, fileId: int,
                     objectExists: (ObjectType, int) -> bool,
                     fileOf: int -> Option<FileContent>): (r: ImportResult)
    ensures |ids| == 0 <==> r == NoIds
    ensures r.InvalidObject? <==> |ids| > 0 && !objectExists(objectType, ids[0])
    ensures r.InvalidObject? ==> r.objectType == objectType && r.id == ids[0]
    ensures r.FileNotFound? <==> |ids| > 0 && objectExists(objectType, ids[0]) && fileOf(fileId).None?
    ensures r.FileNotFound? ==> r.fileId == fileId
    ensures r.Imported? <==> |ids| > 0 && objectExists(objectType, ids[0]) && fileOf(fileId).Some?
                             && |MetadataOf(fileOf(fileId).value)| > 0
    ensures r.Imported? ==> r.id == ids[0] && r.objectType == objectType
                            && r.annotations == ApplyMetadata(MetadataOf(fileOf(fileId).value))
  {
    if |ids| == 0 then NoIds
    else if !objectExists(objectType, ids[0]) then InvalidObject(objectType, ids[0])
    else
      match fileOf(fileId)
      case None => FileNotFound(fileId)
      case Some(content) =>
        var md := MetadataOf(content);
        if |md| == 0 then NoMetadata
        else Imported(objectType, ids[0], ApplyMetadata(md))
  }
}

=== FILE: isa_import_properties.dfy ===
/** What the ISA import promises, stated over the fold in IsaImport. */
module IsaImportProperties {
  import opened Wrappers
  import opened Strings
  import opened OrderedMaps
  import opened IsaImport

  /** A header title as it reaches a namespace: stripped and upper-case. */
  predicate IsTitle(t: string) {
    Stripped(t) && IsUpperStr(t)
  }

  /** A data key as it reaches a record: stripped, non-empty, not upper-case. */
  predicate IsKey(k: string) {
    Stripped(k) && k != "" && !IsUpperStr(k)
  }

  /** How a row reads, character by character: a header exactly when its
      stripped first cell has an upper-case letter and no lower-case one,
      titled by that stripped cell; blank exactly when the first cell is all
      whitespace; otherwise an entry keyed by the stripped first cell. */
  lemma ClassifyCases(row: Row)
    ensures var t := Trim(FirstCell(row));
            && (Classify(row).Header? <==> && (exists i :: 0 <= i < |t| && IsUpperChar(t[i]))
                                           && (forall i :: 0 <= i < |t| ==> !IsLowerChar(t[i])))
            && (Classify(row).Header? ==> Classify(row).title == t)
            && (Classify(row).Blank? <==> AllSpace(FirstCell(row)))
            && (Classify(row).Entry? ==> Classify(row).key == t && t != "")
  {
    IsUpperStrChars(Trim(FirstCell(row)));
  }

  /** A row whose first cell is a title is a header with that title,
      whatever cells follow. */
  lemma HeaderRow(t: string, rest: seq<string>)
    requires IsTitle(t)
    ensures Classify([t] + rest) == Header(t)
  {
    assert FirstCell([t] + rest) == t;
    TrimStripped(t);
  }

  /** A row whose stripped first cell is neither empty nor a title is an
      entry keyed by that stripped cell; its value joins the stripped
      remaining cells. Whitespace around the key is dropped. */
  lemma EntryRow(cell: string, cells: seq<string>)
    requires Trim(cell) != "" && !IsUpperStr(Trim(cell))
    ensures Classify([cell] + cells) == Entry(Trim(cell), Join(ValueSeparator, TrimAll(cells)))
  {
    var row := [cell] + cells;
    assert FirstCell(row) == cell;
    assert RestCells(row) == cells;
  }

  /** A key written as it is stored keeps its spelling as the entry's key. */
  lemma KeyEntryRow(k: string, cells: seq<string>)
    requires IsKey(k)
    ensures Classify([k] + cells) == Entry(k, Join(ValueSeparator, TrimAll(cells)))
  {
    TrimStripped(k);
    EntryRow(k, cells);
  }

  /** Stripping cells that are already stripped changes none of them. */
  lemma {:induction false} TrimAllStripped(cells: seq<string>)
    requires forall i :: 0 <= i < |cells| ==> Stripped(cells[i])
    ensures TrimAll(cells) == cells
    decreases |cells|
  {
    if |cells| > 0 {
      TrimStripped(cells[0]);
      TrimAllStripped(cells[1..]);
      assert [cells[0]] + cells[1..] == cells;
    }
  }

  /** A row of a key and one value is the entry of that key and the value
      stripped. */
  lemma EntryValue(k: string, v: string)
    requires IsKey(k)
    ensures Classify([k] + [v]) == Entry(k, Trim(v))
  {
    KeyEntryRow(k, [v]);
    assert TrimAll([v]) == [Trim(v)] by {
      assert [v][1..] == [];
    }
  }

  /** A first cell without an upper-case letter never opens a section,
      whatever else it holds. */
  lemma NoUpperNoHeader(row: Row)
    requires forall c :: c in FirstCell(row) ==> !IsUpperChar(c)
    ensures !Classify(row).Header?
  {
    var t := Trim(FirstCell(row));
    TrimSubset(FirstCell(row));
    forall i | 0 <= i < |t| ensures !IsUpperChar(t[i]) {
      assert t[i] in t;
    }
    IsUpperStrChars(t);
  }

  /** Digits are uncased, so "123" is not a header but a data key. */
  lemma DigitsAreNoHeader()
    ensures Classify(["123"]).Entry?
  {
    var row: Row := ["123"];
    assert FirstCell(row) == "123";
    assert forall c :: c in "123" ==> !IsUpperChar(c);
    NoUpperNoHeader(row);
    assert "123"[0] == '1';
  }

  /** A row whose first cell is empty or only whitespace is blank, whatever
      the other cells hold: it neither opens a section nor stores a key. */
  lemma BlankFirstCell(cell: string, rest: seq<string>)
    requires AllSpace(cell)
    ensures Classify([cell] + rest) == Blank
  {
    assert FirstCell([cell] + rest) == cell;
    assert Trim(cell) == "";
    assert !IsUpperStr("");
  }

  /** An upper-case data key such as "DOI" opens a section. */
  lemma UpperKeyIsHeader()
    ensures Classify(["DOI"]) == Header("DOI")
  {
    DoiIsTitle();
    HeaderRow("DOI", []);
    assert ["DOI"] + [] == ["DOI"];
  }

  lemma DoiIsTitle()
    ensures IsTitle("DOI")
  {
    assert IsUpperChar("DOI"[0]);
    assert !IsLowerChar("DOI"[0]) && !IsLowerChar("DOI"[1]) && !IsLowerChar("DOI"[2]);
    IsUpperStrChars("DOI");
  }

  /** Whitespace around a header is stripped before the test and from the title. */
  lemma PaddedHeader(lead: string, t: string, trail: string)
    requires AllSpace(lead) && AllSpace(trail) && IsTitle(t)
    ensures Classify([lead + t + trail]) == Header(t)
  {
    assert FirstCell([lead + t + trail]) == lead + t + trail;
    TrimPadded(lead, t, trail);
  }

  /** The namespace of header "GENERAL" in sheet "Investigation". */
  lemma NamespaceExample()
    ensures NamespaceOf("Investigation", "GENERAL") == "ARC:ISA:INVESTIGATION:GENERAL"
  {
  }

  /** Within one sheet, two headers share a namespace exactly when their
      titles are equal. */
  lemma NamespaceInjective(sheetName: string, t1: string, t2: string)
    ensures NamespaceOf(sheetName, t1) == NamespaceOf(sheetName, t2) <==> t1 == t2
  {
    var prefix := NamespacePrefix + Upper(sheetName) + ":";
    var n1 := NamespaceOf(sheetName, t1);
    var n2 := NamespaceOf(sheetName, t2);
    assert n1[|prefix|..] == t1;
    assert n2[|prefix|..] == t2;
  }

  /** Classifying concatenated rows classifies each part. */
  lemma KindsAppend(a: seq<Row>, b: seq<Row>)
    ensures Kinds(a + b) == Kinds(a) + Kinds(b)
  {
    forall i | 0 <= i < |a + b| ensures Kinds(a + b)[i] == (Kinds(a) + Kinds(b))[i] {
      if i < |a| {
        assert (a + b)[i] == a[i];
      } else {
        assert (a + b)[i] == b[i - |a|];
      }
    }
  }

  /** Running the row loop over `a + b` is running it over `a`, then over `b`. */
  lemma {:induction false} RunKindsAppend(name: string, c: Cursor, a: seq<RowKind>, b: seq<RowKind>)
    ensures RunKinds(name, c, a + b) == RunKinds(name, RunKinds(name, c, a), b)
    decreases |b|
  {
    if |b| == 0 {
      assert a + b == a;
    } else {
      assert (a + b)[..|a + b| - 1] == a + b[..|b| - 1];
      RunKindsAppend(name, c, a, b[..|b| - 1]);
    }
  }

  /** Rows that come before any header leave the metadata alone and open no
      namespace. */
  lemma {:induction false} RowsBeforeHeaderIgnored(name: string, md: Metadata, kinds: seq<RowKind>)
    requires forall i :: 0 <= i < |kinds| ==> !kinds[i].Header?
    ensures RunKinds(name, Cursor(md, None), kinds) == Cursor(md, None)
    decreases |kinds|
  {
    if |kinds| > 0 {
      RowsBeforeHeaderIgnored(name, md, kinds[..|kinds| - 1]);
    }
  }

  /** A sheet's leading header-less rows contribute nothing: the sheet imports
      as if it started at its remaining rows. */
  lemma LeadingRowsIgnored(md: Metadata, name: string, lead: seq<Row>, rest: seq<Row>)
    requires forall i :: 0 <= i < |lead| ==> !Classify(lead[i]).Header?
    ensures ImportSheet(md, Sheet(name, lead + rest)) == ImportSheet(md, Sheet(name, rest))
  {
    KindsAppend(lead, rest);
    RunKindsAppend(name, Cursor(md, None), Kinds(lead), Kinds(rest));
    RowsBeforeHeaderIgnored(name, md, Kinds(lead));
  }

  /** The namespace does not carry over between sheets: a sheet without a
      header adds nothing, whatever namespace the sheet before it left open. */
  lemma HeaderlessSheetAddsNothing(sheets: seq<Sheet>, s: Sheet)
    requires forall i :: 0 <= i < |s.rows| ==> !Classify(s.rows[i]).Header?
    ensures ExtractMetadata(sheets + [s]) == ExtractMetadata(sheets)
  {
    assert (sheets + [s])[..|sheets + [s]| - 1] == sheets;
    RowsBeforeHeaderIgnored(s.name, ExtractMetadata(sheets), Kinds(s.rows));
  }

  /** A header opens its namespace with an empty record. A namespace met
      before keeps its position and loses the keys gathered under it; every
      other namespace is untouched. */
  lemma HeaderResetsRecord(name: string, c: Cursor, title: string)
    ensures var ns := NamespaceOf(name, title);
            var c' := Step(name, c, Header(title));
            && c'.namespace == Some(ns)
            && Get(c'.metadata, ns) == Some([])
            && (ns in KeySet(c.metadata) ==> Keys(c'.metadata) == Keys(c.metadata))
            && (ns !in KeySet(c.metadata) ==> Keys(c'.metadata) == Keys(c.metadata) + [ns])
            && forall n :: n != ns ==> Get(c'.metadata, n) == Get(c.metadata, n)
  {
    var ns := NamespaceOf(name, title);
    if ns !in KeySet(c.metadata) {
      assert Keys(c.metadata + [(ns, [])]) == Keys(c.metadata) + [ns];
    }
  }

  /** A row whose stripped first cell is empty changes nothing. */
  lemma BlankRowIgnored(name: string, c: Cursor, row: Row)
    requires Trim(FirstCell(row)) == ""
    ensures Step(name, c, Classify(row)) == c
  {
  }

  /** A data row under an open namespace stores its key with its value. A key
      already present keeps its place and takes the new value (the record
      does not grow); other keys and other namespaces are untouched. */
  lemma EntryStored(name: string, c: Cursor, key: string, value: string)
    requires Valid(c) && c.namespace.Some?
    ensures var ns := c.namespace.value;
            var before := Get(c.metadata, ns).value;
            var c' := Step(name, c, Entry(key, value));
            var after := Get(c'.metadata, ns).value;
            && c'.namespace == c.namespace
            && Keys(c'.metadata) == Keys(c.metadata)
            && Get(after, key) == Some(value)
            && (key in KeySet(before) ==> Keys(after) == Keys(before))
            && (key !in KeySet(before) ==> Keys(after) == Keys(before) + [key])
            && (forall k :: k != key ==> Get(after, k) == Get(before, k))
            && (forall n :: n != ns ==> Get(c'.metadata, n) == Get(c.metadata, n))
  {
    var before := Get(c.metadata, c.namespace.value).value;
    if key !in KeySet(before) {
      KeysSnoc(before, (key, value));
    }
  }

  /** Empty cells are kept: a key, a value and an empty cell store the
      stripped value followed by a dangling ", " (["Title", "My Study", ""]
      stores "My Study, "). */
  lemma EmptyCellKept(k: string, v: string)
    requires IsKey(k)
    ensures Classify([k] + [v, ""]) == Entry(k, Trim(v) + ", ")
  {
    KeyEntryRow(k, [v, ""]);
    TrimAllEmptyTail(v);
    JoinPair(Trim(v));
  }

  lemma TrimAllEmptyTail(v: string)
    ensures TrimAll([v, ""]) == [Trim(v), ""]
  {
    assert Trim("") == "";
    assert [v, ""][1..] == [""];
    assert [""][1..] == [];
  }

  lemma JoinPair(w: string)
    ensures Join(ValueSeparator, [w, ""]) == w + ", "
  {
    assert [w, ""][1..] == [""];
  }

  /** Stripping never introduces a character. */
  lemma TrimSubset(s: string)
    ensures forall x :: x in Trim(s) ==> x in s
  {
    var t := TrimStart(s);
    assert t == s[|s| - |t|..];
    assert forall x :: x in t ==> x in s;
    var r := TrimEnd(t);
    assert r == t[..|r|];
    assert forall x :: x in r ==> x in t;
  }

  lemma TrimKeepsOut(c: char, s: string)
    requires c !in s
    ensures c !in Trim(s)
  {
    TrimSubset(s);
  }

  /** The stored value is exactly the remaining cells, stripped and joined:
      when no cell holds a comma, splitting the value at ", " gives back the
      stripped cells one for one, so there is one separator per cell after
      the first and no cell is lost. */
  lemma EntryValueSplits(k: string, cells: seq<string>)
    requires IsKey(k) && |cells| >= 1
    requires forall i :: 0 <= i < |cells| ==> ',' !in cells[i]
    ensures Classify([k] + cells).Entry?
    ensures Split(ValueSeparator, Classify([k] + cells).value) == TrimAll(cells)
  {
    KeyEntryRow(k, cells);
    var trimmed := TrimAll(cells);
    TrimAllAt(cells);
    forall i | 0 <= i < |trimmed| ensures ValueSeparator[0] !in trimmed[i] {
      TrimKeepsOut(',', cells[i]);
    }
    SplitJoin(ValueSeparator, trimmed);
  }

  /** The namespaces the headers among `kinds` open. */
  function SheetNamespaces(name: string, kinds: seq<RowKind>): set<string> {
    set i | 0 <= i < |kinds| && kinds[i].Header? :: NamespaceOf(name, kinds[i].title)
  }

  lemma SheetNamespacesSnoc(name: string, kinds: seq<RowKind>, last: RowKind)
    ensures SheetNamespaces(name, kinds + [last])
         == SheetNamespaces(name, kinds) + (if last.Header? then {NamespaceOf(name, last.title)} else {})
  {
    var all := kinds + [last];
    forall n | n in SheetNamespaces(name, kinds)
      ensures n in SheetNamespaces(name, all)
    {
      var i :| 0 <= i < |kinds| && kinds[i].Header? && n == NamespaceOf(name, kinds[i].title);
      assert all[i] == kinds[i];
    }
    forall n | n in SheetNamespaces(name, all)
      ensures n in SheetNamespaces(name, kinds) || (last.Header? && n == NamespaceOf(name, last.title))
    {
      var i :| 0 <= i < |all| && all[i].Header? && n == NamespaceOf(name, all[i].title);
      if i < |kinds| {
        assert all[i] == kinds[i];
      }
    }
    if last.Header? {
      assert all[|kinds|] == last;
    }
  }

  /** The namespaces every header of every sheet opens. */
  function WorkbookNamespaces(sheets: seq<Sheet>): set<string>
    decreases |sheets|
  {
    if |sheets| == 0 then {}
    else
      var s := sheets[|sheets| - 1];
      WorkbookNamespaces(sheets[..|sheets| - 1]) + SheetNamespaces(s.name, Kinds(s.rows))
  }

  /** Only a header adds a namespace. */
  lemma StepNamespaces(name: string, c: Cursor, kind: RowKind)
    requires c.namespace.Some? ==> c.namespace.value in KeySet(c.metadata)
    ensures KeySet(Step(name, c, kind).metadata)
         == KeySet(c.metadata) + (if kind.Header? then {NamespaceOf(name, kind.title)} else {})
  {
    if kind.Entry? && c.namespace.Some? {
      assert KeySet(c.metadata) + {c.namespace.value} == KeySet(c.metadata);
    }
  }

  /** The row loop adds exactly the namespaces of the headers it meets. */
  lemma {:induction false} RunKindsNamespaces(name: string, c: Cursor, kinds: seq<RowKind>)
    requires Valid(c)
    ensures KeySet(RunKinds(name, c, kinds).metadata) == KeySet(c.metadata) + SheetNamespaces(name, kinds)
    decreases |kinds|
  {
    if |kinds| > 0 {
      var init := kinds[..|kinds| - 1];
      RunKindsNamespaces(name, c, init);
      RunKindsKeepsValid(name, c, init);
      StepNamespaces(name, RunKinds(name, c, init), kinds[|kinds| - 1]);
      SheetNamespacesSnoc(name, init, kinds[|kinds| - 1]);
      assert init + [kinds[|kinds| - 1]] == kinds;
    } else {
      assert SheetNamespaces(name, kinds) == {};
    }
  }

  /** The result has a namespace exactly for each header met in the workbook:
      data rows never create one. */
  lemma {:induction false} ExtractNamespaces(sheets: seq<Sheet>)
    ensures KeySet(ExtractMetadata(sheets)) == WorkbookNamespaces(sheets)
    decreases |sheets|
  {
    if |sheets| > 0 {
      var init := sheets[..|sheets| - 1];
      ExtractNamespaces(init);
      var s := sheets[|sheets| - 1];
      RunKindsNamespaces(s.name, Cursor(ExtractMetadata(init), None), Kinds(s.rows));
    }
  }

  /** The namespaces of a sheet's headers, in row order, repeats included. */
  function SheetNsSeq(name: string, kinds: seq<RowKind>): seq<string>
    decreases |kinds|
  {
    if |kinds| == 0 then []
    else
      var last := kinds[|kinds| - 1];
      SheetNsSeq(name, kinds[..|kinds| - 1]) + (if last.Header? then [NamespaceOf(name, last.title)] else [])
  }

  /** The namespaces of every header of a workbook, sheet after sheet. */
  function WorkbookNsSeq(sheets: seq<Sheet>): seq<string>
    decreases |sheets|
  {
    if |sheets| == 0 then []
    else
      var s := sheets[|sheets| - 1];
      WorkbookNsSeq(sheets[..|sheets| - 1]) + SheetNsSeq(s.name, Kinds(s.rows))
  }

  /** The row loop's namespaces, in order: the ones already present keep
      their places, and each header's namespace follows at its first
      occurrence; a repeated header moves nothing. */
  lemma {:induction false} RunKindsKeys(name: string, c: Cursor, kinds: seq<RowKind>)
    requires Valid(c)
    ensures Keys(RunKinds(name, c, kinds).metadata) == AddNew(Keys(c.metadata), SheetNsSeq(name, kinds))
    decreases |kinds|
  {
    if |kinds| > 0 {
      var init := kinds[..|kinds| - 1];
      var last := kinds[|kinds| - 1];
      var mid := RunKinds(name, c, init);
      RunKindsKeys(name, c, init);
      RunKindsKeepsValid(name, c, init);
      var before := SheetNsSeq(name, init);
      match last
      case Header(title) =>
        var ns := NamespaceOf(name, title);
        HeaderResetsRecord(name, mid, title);
        KeysKeySet(mid.metadata, ns);
        assert (before + [ns])[..|before|] == before;
      case Entry(key, value) =>
        if mid.namespace.Some? {
          EntryStored(name, mid, key, value);
        }
        assert before + [] == before;
      case Blank =>
        assert before + [] == before;
    }
  }

  /** The import's namespaces, in order: each namespace at its first header,
      sheet after sheet. This is the order the annotations are created in. */
  lemma {:induction false} ExtractKeys(sheets: seq<Sheet>)
    ensures Keys(ExtractMetadata(sheets)) == AddNew([], WorkbookNsSeq(sheets))
    decreases |sheets|
  {
    if |sheets| > 0 {
      var init := sheets[..|sheets| - 1];
      var s := sheets[|sheets| - 1];
      ExtractKeys(init);
      RunKindsKeys(s.name, Cursor(ExtractMetadata(init), None), Kinds(s.rows));
      AddNewAppend([], WorkbookNsSeq(init), SheetNsSeq(s.name, Kinds(s.rows)));
    }
  }

  /** The annotations a workbook yields carry its namespaces in order of
      first header, sheet after sheet. */
  lemma ImportAnnotationOrder(sheets: seq<Sheet>)
    ensures var anns := ApplyMetadata(ExtractMetadata(sheets));
            var order := AddNew([], WorkbookNsSeq(sheets));
            && |anns| == |order|
            && forall i :: 0 <= i < |anns| ==> anns[i].namespace == order[i]
  {
    ExtractKeys(sheets);
  }

  /** A header whose namespace is new, in any state of the row loop, appends
      that namespace with an empty record and makes it the open one. */
  lemma NewSection(name: string, md: Metadata, open: Option<string>, t: string)
    requires NamespaceOf(name, t) !in KeySet(md)
    ensures Step(name, Cursor(md, open), Header(t))
         == Cursor(md + [(NamespaceOf(name, t), [])], Some(NamespaceOf(name, t)))
  {
  }

  /** A new key under the most recently added namespace is appended to that
      namespace's record. */
  lemma NewKey(name: string, pre: Metadata, ns: string, rec: Record, k: string, v: string)
    requires ns !in KeySet(pre) && k !in KeySet(rec)
    ensures Step(name, Cursor(pre + [(ns, rec)], Some(ns)), Entry(k, v))
         == Cursor(pre + [(ns, rec + [(k, v)])], Some(ns))
  {
    SetLast(pre, ns, rec, rec + [(k, v)]);
  }

  /** The row loop over two rows is two steps. */
  lemma RunKindsTwo(name: string, c: Cursor, k1: RowKind, k2: RowKind)
    ensures RunKinds(name, c, [k1, k2]) == Step(name, Step(name, c, k1), k2)
  {
    assert [k1, k2][..1] == [k1];
    assert [k1][..0] == [];
    assert RunKinds(name, c, [k1]) == Step(name, RunKinds(name, c, []), k1);
  }

  /** A header with a new namespace followed by one entry: the namespace is
      appended holding just that entry. */
  lemma HeaderThenEntry(name: string, md: Metadata, open: Option<string>, t: string, k: string, v: string)
    requires NamespaceOf(name, t) !in KeySet(md)
    ensures Step(name, Step(name, Cursor(md, open), Header(t)), Entry(k, v))
         == Cursor(md + [(NamespaceOf(name, t), [(k, v)])], Some(NamespaceOf(name, t)))
  {
    var empty: Record := [];
    NewSection(name, md, open, t);
    NewKey(name, md, NamespaceOf(name, t), empty, k, v);
    assert empty + [(k, v)] == [(k, v)];
  }

  /** A header with a new namespace followed by one entry adds one namespace
      holding exactly that entry. */
  lemma SectionWithEntry(name: string, md: Metadata, open: Option<string>, t: string, k: string, v: string)
    requires NamespaceOf(name, t) !in KeySet(md)
    ensures RunKinds(name, Cursor(md, open), [Header(t), Entry(k, v)])
         == Cursor(md + [(NamespaceOf(name, t), [(k, v)])], Some(NamespaceOf(name, t)))
  {
    RunKindsTwo(name, Cursor(md, open), Header(t), Entry(k, v));
    HeaderThenEntry(name, md, open, t, k, v);
  }

  /** A second section with a different title is appended after the first. */
  lemma SecondSection(name: string, t1: string, k1: string, v1: string, t2: string, k2: string, v2: string)
    requires t1 != t2
    ensures RunKinds(name, Cursor([(NamespaceOf(name, t1), [(k1, v1)])], Some(NamespaceOf(name, t1))),
                     [Header(t2), Entry(k2, v2)])
         == Cursor([(NamespaceOf(name, t1), [(k1, v1)]), (NamespaceOf(name, t2), [(k2, v2)])], Some(NamespaceOf(name, t2)))
  {
    var n1 := NamespaceOf(name, t1);
    var m1: Metadata := [(n1, [(k1, v1)])];
    NamespaceInjective(name, t1, t2);
    assert KeySet(m1) == {n1} by {
      assert m1[1..] == [];
    }
    SectionWithEntry(name, m1, Some(n1), t2, k2, v2);
  }

  /** A workbook of one sheet is that sheet's row loop from an empty dictionary. */
  lemma ExtractSingleSheet(sheet: Sheet)
    ensures ExtractMetadata([sheet]) == RunKinds(sheet.name, Cursor([], None), Kinds(sheet.rows)).metadata
  {
    assert [sheet][..0] == [];
  }

  /** Two sections, each a header and one entry, yield two namespaces in the
      order of their headers, each holding its own section's entry. */
  lemma TwoSectionKinds(name: string, t1: string, k1: string, v1: string, t2: string, k2: string, v2: string)
    requires t1 != t2
    ensures RunKinds(name, Cursor([], None), [Header(t1), Entry(k1, v1), Header(t2), Entry(k2, v2)]).metadata
         == [(NamespaceOf(name, t1), [(k1, v1)]), (NamespaceOf(name, t2), [(k2, v2)])]
  {
    var none: Metadata := [];
    SectionWithEntry(name, none, None, t1, k1, v1);
    assert none + [(NamespaceOf(name, t1), [(k1, v1)])] == [(NamespaceOf(name, t1), [(k1, v1)])];
    SecondSection(name, t1, k1, v1, t2, k2, v2);
    RunKindsAppend(name, Cursor(none, None), [Header(t1), Entry(k1, v1)], [Header(t2), Entry(k2, v2)]);
    assert [Header(t1), Entry(k1, v1)] + [Header(t2), Entry(k2, v2)]
        == [Header(t1), Entry(k1, v1), Header(t2), Entry(k2, v2)];
  }

  /** A sheet whose rows read as two sections, each a header and one entry,
      yields two namespaces in the order of their headers, each holding its
      own section's entry. */
  lemma TwoSections(name: string, rows: seq<Row>,
                    t1: string, k1: string, v1: string, t2: string, k2: string, v2: string)
    requires Kinds(rows) == [Header(t1), Entry(k1, v1), Header(t2), Entry(k2, v2)]
    requires t1 != t2
    ensures ExtractMetadata([Sheet(name, rows)])
         == [(NamespaceOf(name, t1), [(k1, v1)]), (NamespaceOf(name, t2), [(k2, v2)])]
  {
    TwoSectionKinds(name, t1, k1, v1, t2, k2, v2);
    ExtractSingleSheet(Sheet(name, rows));
  }
}

=== FILE: ordered_maps.dfy ===
/**
  Insertion-ordered dictionaries, the way Python's `dict` behaves since 3.7:
  a sequence of (key, value) entries. Assigning to a key that is present
  replaces its value in place; assigning to a new key appends an entry.
 */
module OrderedMaps {
  import opened Wrappers

  type Assoc<K, V> = seq<(K, V)>

  /** The keys in iteration order: `list(d.keys())`. */
  function Keys<K, V>(m: Assoc<K, V>): (r: seq<K>)
    ensures |r| == |m|
    ensures forall i :: 0 <= i < |m| ==> r[i] == m[i].0
  {
    if |m| == 0 then [] else [m[0].0] + Keys(m[1..])
  }

  lemma KeysSnoc<K, V>(m: Assoc<K, V>, p: (K, V))
    ensures Keys(m + [p]) == Keys(m) + [p.0]
  {
    assert |Keys(m + [p])| == |Keys(m) + [p.0]|;
  }

  function KeySet<K(==), V>(m: Assoc<K, V>): set<K> {
    if |m| == 0 then {} else {m[0].0} + KeySet(m[1..])
  }

  /** No key occurs in two entries: the invariant every Python dict keeps. */
  predicate UniqueKeys<K(==), V>(m: Assoc<K, V>) {
    |m| == 0 || (m[0].0 !in KeySet(m[1..]) && UniqueKeys(m[1..]))
  }

  lemma {:induction false} KeySetIndex<K, V>(m: Assoc<K, V>)
    ensures forall i :: 0 <= i < |m| ==> m[i].0 in KeySet(m)
    ensures forall k :: k in KeySet(m) ==> exists i :: 0 <= i < |m| && m[i].0 == k
  {
    if |m| > 0 {
      KeySetIndex(m[1..]);
      forall k | k in KeySet(m) ensures exists i :: 0 <= i < |m| && m[i].0 == k {
        if k != m[0].0 {
          assert k in KeySet(m[1..]);
          var i :| 0 <= i < |m[1..]| && m[1..][i].0 == k;
          assert m[i + 1].0 == k;
        }
      }
    }
  }

  lemma {:induction false} KeySetSnoc<K, V>(m: Assoc<K, V>, p: (K, V))
    ensures KeySet(m + [p]) == KeySet(m) + {p.0}
  {
    if |m| > 0 {
      assert (m + [p])[1..] == m[1..] + [p];
      KeySetSnoc(m[1..], p);
    } else {
      assert m + [p] == [p];
    }
  }

  /** `d.get(k)`. */
  function Get<K(==), V>(m: Assoc<K, V>, k: K): (r: Option<V>)
    ensures r.Some? <==> k in KeySet(m)
  {
    if |m| == 0 then None
    else if m[0].0 == k then Some(m[0].1)
    else Get(m[1..], k)
  }

  /** In a dictionary, the lookup of an entry's key finds that entry's value. */
  lemma {:induction false} GetAt<K, V>(m: Assoc<K, V>, i: nat)
    requires UniqueKeys(m) && i < |m|
    ensures Get(m, m[i].0) == Some(m[i].1)
  {
    if i > 0 {
      KeySetIndex(m[1..]);
      assert m[1..][i - 1] == m[i];
      GetAt(m[1..], i - 1);
    }
  }

  /** UniqueKeys, stated on indices. */
  lemma {:induction false} UniqueKeysAt<K, V>(m: Assoc<K, V>)
    requires UniqueKeys(m)
    ensures forall i, j :: 0 <= i < j < |m| ==> m[i].0 != m[j].0
  {
    if |m| > 0 {
      UniqueKeysAt(m[1..]);
      KeySetIndex(m[1..]);
      forall j | 0 < j < |m| ensures m[0].0 != m[j].0 {
        assert m[1..][j - 1] == m[j];
      }
    }
  }

  /** `d[k] = v`. A present key keeps its position and takes the new value; a
      new key is appended; every other key keeps its value. */
  function Set<K(==, !new), V>(m: Assoc<K, V>, k: K, v: V): (r: Assoc<K, V>)
    ensures Get(r, k) == Some(v)
    ensures forall k' :: k' != k ==> Get(r, k') == Get(m, k')
    ensures KeySet(r) == KeySet(m) + {k}
    ensures UniqueKeys(m) ==> UniqueKeys(r)
    ensures k in KeySet(m) ==> Keys(r) == Keys(m)
    ensures k !in KeySet(m) ==> r == m + [(k, v)]
  {
    if |m| == 0 then [(k, v)]
    else if m[0].0 == k then [(k, v)] + m[1..]
    else
      var r := [m[0]] + Set(m[1..], k, v);
      assert r[1..] == Set(m[1..], k, v);
      r
  }

  /** Assigning to the key of the last entry replaces that entry. */
  lemma {:induction false} SetLast<K(!new), V>(pre: Assoc<K, V>, k: K, v0: V, v: V)
    requires k !in KeySet(pre)
    ensures Get(pre + [(k, v0)], k) == Some(v0)
    ensures Set(pre + [(k, v0)], k, v) == pre + [(k, v)]
  {
    if |pre| > 0 {
      assert (pre + [(k, v0)])[1..] == pre[1..] + [(k, v0)];
      assert (pre + [(k, v)]) == [pre[0]] + (pre[1..] + [(k, v)]);
      SetLast(pre[1..], k, v0, v);
    }
  }

  /** The value of the last entry for `k` in a list of pairs: the reference
      meaning of "last write wins". */
  function LastValue<K(==), V>(pairs: seq<(K, V)>, k: K): (r: Option<V>)
    ensures r.Some? <==> k in KeySet(pairs)
  {
    if |pairs| == 0 then None
    else
      var init := pairs[..|pairs| - 1];
      assert pairs == init + [pairs[|pairs| - 1]];
      KeySetSnoc(init, pairs[|pairs| - 1]);
      if pairs[|pairs| - 1].0 == k then Some(pairs[|pairs| - 1].1)
      else LastValue(init, k)
  }

  /** Assigning the pairs one after another, as `d.update(pairs)` or a loop of
      `d[k] = v` does. Every key of `m` keeps its position; the keys are
      those of `m` and of `pairs`; what each key holds is UpdateAllGet. */
  function UpdateAll<K(==, !new), V>(m: Assoc<K, V>, pairs: seq<(K, V)>): (r: Assoc<K, V>)
    ensures KeySet(r) == KeySet(m) + KeySet(pairs)
    ensures UniqueKeys(m) ==> UniqueKeys(r)
    ensures |r| >= |m| && Keys(r)[..|m|] == Keys(m)
  {
    if |pairs| == 0 then m
    else
      var init := pairs[..|pairs| - 1];
      var (k, v) := pairs[|pairs| - 1];
      assert pairs == init + [(k, v)];
      KeySetSnoc(init, (k, v));
      var prev := UpdateAll(m, init);
      var r := Set(prev, k, v);
      assert Keys(r)[..|m|] == Keys(m) by {
        if k !in KeySet(prev) {
          assert Keys(r)[..|prev|] == Keys(prev);
        }
      }
      r
  }

  /** After the update, a key assigned in `pairs` holds the value of its last
      assignment, and any other key keeps its value in `m`. */
  lemma {:induction false} UpdateAllGet<K(!new), V>(m: Assoc<K, V>, pairs: seq<(K, V)>)
    ensures forall k :: Get(UpdateAll(m, pairs), k) ==
                          (if k in KeySet(pairs) then LastValue(pairs, k) else Get(m, k))
    decreases |pairs|
  {
    if |pairs| > 0 {
      var init := pairs[..|pairs| - 1];
      var (k, v) := pairs[|pairs| - 1];
      assert pairs == init + [(k, v)];
      KeySetSnoc(init, (k, v));
      UpdateAllGet(m, init);
    }
  }

  /** `dict(pairs)`: the dictionary built from an empty one by assigning the
      pairs in order. */
  function FromPairs<K(==, !new), V>(pairs: seq<(K, V)>): (r: Assoc<K, V>)
    ensures UniqueKeys(r)
    ensures KeySet(r) == KeySet(pairs)
  {
    UpdateAll([], pairs)
  }

  /** Each key of `dict(pairs)` holds its last assigned value. */
  lemma FromPairsGet<K(!new), V>(pairs: seq<(K, V)>)
    ensures forall k :: Get(FromPairs(pairs), k) == LastValue(pairs, k)
  {
    UpdateAllGet([], pairs);
  }

  /** The last value of `k` is the value of a pair for `k` that no later
      pair for `k` follows. */
  lemma {:induction false} LastValueWitness<K, V>(pairs: seq<(K, V)>, k: K)
    ensures LastValue(pairs, k).Some? ==>
              exists j :: 0 <= j < |pairs| && pairs[j] == (k, LastValue(pairs, k).value)
                          && forall j' :: j < j' < |pairs| ==> pairs[j'].0 != k
    decreases |pairs|
  {
    if |pairs| > 0 && pairs[|pairs| - 1].0 != k {
      var init := pairs[..|pairs| - 1];
      LastValueWitness(init, k);
      if LastValue(init, k).Some? {
        var j :| 0 <= j < |init| && init[j] == (k, LastValue(init, k).value)
                 && forall j' :: j < j' < |init| ==> init[j'].0 != k;
        assert pairs[j] == init[j];
        forall j' | j < j' < |pairs| ensures pairs[j'].0 != k {
          if j' < |init| { assert pairs[j'] == init[j']; }
        }
      }
    }
  }

  /** Updating with `a + b` is updating with `a`, then with `b`. */
  lemma {:induction false} UpdateAllAppend<K(!new), V>(m: Assoc<K, V>, a: seq<(K, V)>, b: seq<(K, V)>)
    ensures UpdateAll(m, a + b) == UpdateAll(UpdateAll(m, a), b)
    decreases |b|
  {
    if |b| == 0 {
      assert a + b == a;
    } else {
      assert (a + b)[..|a + b| - 1] == a + b[..|b| - 1];
      assert (a + b)[|a + b| - 1] == b[|b| - 1];
      UpdateAllAppend(m, a, b[..|b| - 1]);
    }
  }

  /** Updating with one more pair is assigning that pair. */
  lemma UpdateAllSnoc<K(!new), V>(m: Assoc<K, V>, a: seq<(K, V)>, k: K, v: V)
    ensures UpdateAll(m, a + [(k, v)]) == Set(UpdateAll(m, a), k, v)
  {
    assert (a + [(k, v)])[..|a|] == a;
  }

  /** In a dictionary a key has one entry, so its last value is its lookup. */
  lemma {:induction false} LastValueOfDict<K, V>(m: Assoc<K, V>, k: K)
    requires UniqueKeys(m)
    ensures LastValue(m, k) == Get(m, k)
  {
    LastValueWitness(m, k);
    if LastValue(m, k).Some? {
      var j :| 0 <= j < |m| && m[j] == (k, LastValue(m, k).value)
               && forall j' :: j < j' < |m| ==> m[j'].0 != k;
      GetAt(m, j);
    }
  }

  /** The dictionary with `f` applied to every value: same keys in the same
      order, each looked-up value mapped. */
  function MapValues<K(==, !new), V, W>(m: Assoc<K, V>, f: V -> W): (r: Assoc<K, W>)
    ensures Keys(r) == Keys(m)
    ensures KeySet(r) == KeySet(m)
    ensures UniqueKeys(m) ==> UniqueKeys(r)
  {
    if |m| == 0 then []
    else
      var r := [(m[0].0, f(m[0].1))] + MapValues(m[1..], f);
      assert r[1..] == MapValues(m[1..], f);
      r
  }

  /** Each looked-up value of the mapped dictionary is `f` of the original. */
  lemma {:induction false} MapValuesGet<K(!new), V, W>(m: Assoc<K, V>, f: V -> W)
    ensures forall k :: Get(MapValues(m, f), k) == (if k in KeySet(m) then Some(f(Get(m, k).value)) else None)
    decreases |m|
  {
    if |m| > 0 {
      MapValuesGet(m[1..], f);
      assert MapValues(m, f)[1..] == MapValues(m[1..], f);
    }
  }

  /** The converse of UniqueKeysAt: keys distinct at every pair of indices
      make a dictionary. */
  lemma {:induction false} DistinctKeysUnique<K, V>(m: Assoc<K, V>)
    requires forall i, j :: 0 <= i < j < |m| ==> m[i].0 != m[j].0
    ensures UniqueKeys(m)
  {
    if |m| > 0 {
      var tail := m[1..];
      assert forall i, j :: 0 <= i < j < |tail| ==> tail[i].0 != tail[j].0 by {
        forall i, j | 0 <= i < j < |tail| ensures tail[i].0 != tail[j].0 {
          assert tail[i] == m[i + 1] && tail[j] == m[j + 1];
        }
      }
      DistinctKeysUnique(tail);
      KeySetIndex(tail);
      forall i | 0 <= i < |tail| ensures tail[i].0 != m[0].0 {
        assert tail[i] == m[i + 1];
      }
    }
  }

  /** The value of a pair that no later pair with the same key follows is
      the last value of that key. */
  lemma {:induction false} LastValueOfLastPair<K, V>(pre: seq<(K, V)>, k: K, v: V, post: seq<(K, V)>)
    requires k !in KeySet(post)
    ensures LastValue(pre + [(k, v)] + post, k) == Some(v)
    decreases |post|
  {
    var all := pre + [(k, v)] + post;
    if |post| == 0 {
      assert all[|all| - 1] == (k, v);
    } else {
      var init := post[..|post| - 1];
      assert post == init + [post[|post| - 1]];
      KeySetSnoc(init, post[|post| - 1]);
      assert all[..|all| - 1] == pre + [(k, v)] + init;
      assert all[|all| - 1] == post[|post| - 1];
      LastValueOfLastPair(pre, k, v, init);
    }
  }

  /** A dictionary has as many entries as keys. */
  lemma {:induction false} UniqueKeysSize<K, V>(m: Assoc<K, V>)
    requires UniqueKeys(m)
    ensures |KeySet(m)| == |m|
  {
    if |m| > 0 {
      UniqueKeysSize(m[1..]);
    }
  }

  /** No element occurs twice. */
  predicate Distinct<T(==)>(xs: seq<T>) {
    forall i, j :: 0 <= i < j < |xs| ==> xs[i] != xs[j]
  }

  /** `cols` followed by the elements of `keys` not already present, in order
      of first appearance: the key order a dictionary reaches when the keys
      are assigned one after another. The elements already there keep their
      places, every key ends up present, and no element is added twice. */
  function AddNew<K(==, !new)>(cols: seq<K>, keys: seq<K>): (r: seq<K>)
    ensures Distinct(cols) ==> Distinct(r)
    ensures |r| >= |cols| && r[..|cols|] == cols
    ensures forall c :: c in r <==> c in cols || c in keys
    decreases |keys|
  {
    if |keys| == 0 then cols
    else
      var prev := AddNew(cols, keys[..|keys| - 1]);
      var k := keys[|keys| - 1];
      assert forall c :: c in keys <==> c in keys[..|keys| - 1] || c == k by {
        assert keys == keys[..|keys| - 1] + [k];
      }
      if k in prev then prev
      else
        var r := prev + [k];
        assert r[..|cols|] == prev[..|cols|];
        r
  }

  /** The keys of a dictionary are distinct. */
  lemma KeysDistinct<K, V>(m: Assoc<K, V>)
    requires UniqueKeys(m)
    ensures Distinct(Keys(m))
  {
    UniqueKeysAt(m);
  }

  /** A key occurs in the key list exactly when it is in the key set. */
  lemma KeysKeySet<K, V>(m: Assoc<K, V>, k: K)
    ensures k in Keys(m) <==> k in KeySet(m)
  {
    KeySetIndex(m);
    if k in KeySet(m) {
      var i :| 0 <= i < |m| && m[i].0 == k;
      assert Keys(m)[i] == k;
    }
  }

  /** The keys after `update`: the old keys in their order, then each newly
      assigned key at its first assignment. */
  lemma {:induction false} UpdateAllKeys<K(!new), V>(m: Assoc<K, V>, pairs: seq<(K, V)>)
    ensures Keys(UpdateAll(m, pairs)) == AddNew(Keys(m), Keys(pairs))
    decreases |pairs|
  {
    if |pairs| > 0 {
      var init := pairs[..|pairs| - 1];
      var (k, v) := pairs[|pairs| - 1];
      assert pairs == init + [(k, v)];
      KeysSnoc(init, (k, v));
      assert Keys(pairs)[..|Keys(pairs)| - 1] == Keys(init);
      UpdateAllKeys(m, init);
      var prev := UpdateAll(m, init);
      KeysKeySet(prev, k);
      if k !in KeySet(prev) {
        KeysSnoc(prev, (k, v));
      }
    }
  }

  /** Adding the first appearances of `keys` adds the same as adding `keys`. */
  lemma {:induction false} AddNewFirstAppearances<K(!new)>(cols: seq<K>, keys: seq<K>)
    ensures AddNew(cols, AddNew([], keys)) == AddNew(cols, keys)
    decreases |keys|
  {
    if |keys| > 0 {
      var init := keys[..|keys| - 1];
      var x := keys[|keys| - 1];
      var firsts := AddNew([], init);
      AddNewFirstAppearances(cols, init);
      if x !in firsts {
        assert (firsts + [x])[..|firsts|] == firsts;
      }
    }
  }

  /** `dict(pairs)` lists its keys in order of first assignment. */
  lemma FromPairsKeys<K(!new), V>(pairs: seq<(K, V)>)
    ensures Keys(FromPairs(pairs)) == AddNew([], Keys(pairs))
  {
    UpdateAllKeys([], pairs);
  }

  /** Dropping the last element of a + b drops it from b. */
  lemma DropLastOfAppend<T>(a: seq<T>, b: seq<T>)
    requires |b| > 0
    ensures (a + b)[..|a + b| - 1] == a + b[..|b| - 1]
    ensures (a + b)[|a + b| - 1] == b[|b| - 1]
  {
  }

  /** Adding the keys of `a + b` is adding those of `a`, then those of `b`. */
  lemma {:induction false} AddNewAppend<K(!new)>(cols: seq<K>, a: seq<K>, b: seq<K>)
    ensures AddNew(cols, a + b) == AddNew(AddNew(cols, a), b)
    decreases |b|
  {
    if |b| == 0 {
      assert a + b == a;
    } else {
      DropLastOfAppend(a, b);
      AddNewAppend(cols, a, b[..|b| - 1]);
    }
  }
}

=== FILE: strings.dfy ===
/**
  The string primitives the import script relies on, restricted to ASCII:
  Python's `str.strip()`, `str.isupper()`, `str.upper()` and `sep.join(...)`,
  together with `str.split(sep)` as the inverse of a join.
 */
module Strings {

  /** Python's whitespace on the ASCII range: tab, line feed, vertical tab, form feed,
      carriage return, the four separators 0x1C-0x1F, and space. */
  predicate IsSpace(c: char) {
    var n := c as int;
    n == 32 || 9 <= n <= 13 || 28 <= n <= 31
  }

  predicate AllSpace(s: string) {
    forall i :: 0 <= i < |s| ==> IsSpace(s[i])
  }

  /** Neither starts nor ends with whitespace: what `strip()` produces. */
  predicate Stripped(s: string) {
    s == [] || (!IsSpace(s[0]) && !IsSpace(s[|s| - 1]))
  }

  /** The number of whitespace characters `s` starts with. */
  function LeadingSpaces(s: string): (n: nat)
    ensures n <= |s|
    ensures forall i :: 0 <= i < n ==> IsSpace(s[i])
    ensures n == |s| || !IsSpace(s[n])
    decreases |s|
  {
    if |s| > 0 && IsSpace(s[0]) then
      var m := LeadingSpaces(s[1..]);
      assert forall i :: 0 < i <= m ==> s[i] == s[1..][i - 1];
      1 + m
    else 0
  }

  /** Where the whitespace `s` ends with begins. */
  function TrailingStart(s: string): (n: nat)
    ensures n <= |s|
    ensures forall i :: n <= i < |s| ==> IsSpace(s[i])
    ensures n == 0 || !IsSpace(s[n - 1])
    decreases |s|
  {
    if |s| > 0 && IsSpace(s[|s| - 1]) then TrailingStart(s[..|s| - 1]) else |s|
  }

  /** `s.lstrip()`: drops the leading whitespace and keeps the rest as a suffix of `s`. */
  function TrimStart(s: string): (r: string)
    ensures |r| <= |s| && r == s[|s| - |r|..]
    ensures AllSpace(s[..|s| - |r|])
    ensures r == [] || !IsSpace(r[0])
  {
    s[LeadingSpaces(s)..]
  }

  /** `s.rstrip()`: drops the trailing whitespace and keeps the rest as a prefix of `s`. */
  function TrimEnd(s: string): (r: string)
    ensures |r| <= |s| && r == s[..|r|]
    ensures AllSpace(s[|r|..])
    ensures r == [] || !IsSpace(r[|r| - 1])
  {
    s[..TrailingStart(s)]
  }

  /** `s.strip()`. The result has no whitespace at either end, and it is empty
      exactly when `s` is all whitespace. */
  function Trim(s: string): (r: string)
    ensures |r| <= |s|
    ensures Stripped(r)
    ensures r == [] <==> AllSpace(s)
  {
    var t := TrimStart(s);
    var r := TrimEnd(t);
    assert r == [] ==> AllSpace(s) by {
      if r == [] {
        assert s == s[..|s| - |t|] + t;
        assert AllSpace(t) by { assert t[|r|..] == t; }
      }
    }
    r
  }

  /** Leading whitespace followed by a non-blank start is exactly the padding. */
  lemma LeadingSpacesPadded(lead: string, rest: string)
    requires AllSpace(lead)
    requires rest == [] || !IsSpace(rest[0])
    ensures LeadingSpaces(lead + rest) == |lead|
  {
    var s := lead + rest;
    assert forall i :: 0 <= i < |lead| ==> s[i] == lead[i];
    assert |rest| > 0 ==> s[|lead|] == rest[0];
  }

  lemma TrailingStartPadded(rest: string, trail: string)
    requires AllSpace(trail)
    requires rest == [] || !IsSpace(rest[|rest| - 1])
    ensures TrailingStart(rest + trail) == |rest|
  {
    var s := rest + trail;
    assert forall i :: |rest| <= i < |s| ==> s[i] == trail[i - |rest|];
    assert |rest| > 0 ==> s[|rest| - 1] == rest[|rest| - 1];
  }

  lemma TrimStartPadded(lead: string, rest: string)
    requires AllSpace(lead)
    requires rest == [] || !IsSpace(rest[0])
    ensures TrimStart(lead + rest) == rest
  {
    LeadingSpacesPadded(lead, rest);
    assert (lead + rest)[|lead|..] == rest;
  }

  lemma TrimEndPadded(rest: string, trail: string)
    requires AllSpace(trail)
    requires rest == [] || !IsSpace(rest[|rest| - 1])
    ensures TrimEnd(rest + trail) == rest
  {
    TrailingStartPadded(rest, trail);
    assert (rest + trail)[..|rest|] == rest;
  }

  /** `strip()` recovers a stripped core from any whitespace padding around it:
      together with the contract of Trim this pins `strip()` down completely. */
  lemma TrimPadded(lead: string, core: string, trail: string)
    requires AllSpace(lead) && AllSpace(trail)
    requires Stripped(core)
    ensures Trim(lead + core + trail) == core
  {
    if core == [] {
      assert AllSpace(lead + core + trail) by {
        assert lead + core + trail == lead + trail;
      }
    } else {
      assert lead + core + trail == lead + (core + trail);
      TrimStartPadded(lead, core + trail);
      TrimEndPadded(core, trail);
    }
  }

  /** `strip()` leaves an already stripped string as it is. */
  lemma TrimStripped(s: string)
    requires Stripped(s)
    ensures Trim(s) == s
  {
    TrimPadded("", s, "");
    assert "" + s + "" == s;
  }

  predicate IsUpperChar(c: char) {
    'A' <= c <= 'Z'
  }

  predicate IsLowerChar(c: char) {
    'a' <= c <= 'z'
  }

  predicate HasUpper(s: string) {
    |s| > 0 && (IsUpperChar(s[0]) || HasUpper(s[1..]))
  }

  predicate HasLower(s: string) {
    |s| > 0 && (IsLowerChar(s[0]) || HasLower(s[1..]))
  }

  /** Python's `str.isupper()` on ASCII: at least one cased character and none of
      them lower-case. Digits, punctuation and spaces are uncased. */
  predicate IsUpperStr(s: string) {
    HasUpper(s) && !HasLower(s)
  }

  lemma {:induction false} HasUpperChars(s: string)
    ensures HasUpper(s) <==> exists i :: 0 <= i < |s| && IsUpperChar(s[i])
  {
    if |s| > 0 {
      HasUpperChars(s[1..]);
      if exists i :: 0 <= i < |s| && IsUpperChar(s[i]) {
        var i :| 0 <= i < |s| && IsUpperChar(s[i]);
        if i > 0 { assert IsUpperChar(s[1..][i - 1]); }
      }
      if HasUpper(s[1..]) {
        var i :| 0 <= i < |s[1..]| && IsUpperChar(s[1..][i]);
        assert IsUpperChar(s[i + 1]);
      }
    }
  }

  lemma {:induction false} HasLowerChars(s: string)
    ensures HasLower(s) <==> exists i :: 0 <= i < |s| && IsLowerChar(s[i])
  {
    if |s| > 0 {
      HasLowerChars(s[1..]);
      if exists i :: 0 <= i < |s| && IsLowerChar(s[i]) {
        var i :| 0 <= i < |s| && IsLowerChar(s[i]);
        if i > 0 { assert IsLowerChar(s[1..][i - 1]); }
      }
      if HasLower(s[1..]) {
        var i :| 0 <= i < |s[1..]| && IsLowerChar(s[1..][i]);
        assert IsLowerChar(s[i + 1]);
      }
    }
  }

  /** IsUpperStr, character by character: some character is an upper-case
      letter and none is a lower-case one. */
  lemma IsUpperStrChars(s: string)
    ensures IsUpperStr(s) <==> && (exists i :: 0 <= i < |s| && IsUpperChar(s[i]))
                               && (forall i :: 0 <= i < |s| ==> !IsLowerChar(s[i]))
  {
    HasUpperChars(s);
    HasLowerChars(s);
  }

  function UpperChar(c: char): (u: char)
    ensures !IsLowerChar(u)
    ensures IsLowerChar(c) ==> IsUpperChar(u)
    ensures IsLowerChar(c) ==> u as int - 'A' as int == c as int - 'a' as int
    ensures !IsLowerChar(c) ==> u == c
  {
    if IsLowerChar(c) then (c as int - 32) as char else c
  }

  /** Python's `str.upper()` on ASCII: letter by letter, every other character kept. */
  function Upper(s: string): (r: string)
    ensures |r| == |s|
    ensures forall i :: 0 <= i < |s| ==> r[i] == UpperChar(s[i])
  {
    seq(|s|, i requires 0 <= i < |s| => UpperChar(s[i]))
  }

  /** An upper-cased string has no lower-case letter left, and upper-casing it
      again changes nothing. */
  lemma UpperIsUpper(s: string)
    ensures forall i :: 0 <= i < |s| ==> !IsLowerChar(Upper(s)[i])
    ensures Upper(Upper(s)) == Upper(s)
  {
  }

  /** Python's `sep.join(xs)`: the items in order with `sep` between neighbours. */
  function Join(sep: string, xs: seq<string>): (r: string)
    ensures |xs| == 1 ==> r == xs[0]
    ensures |xs| == 0 ==> r == ""
    ensures |xs| > 0 ==> |r| >= |xs[0]| && r[..|xs[0]|] == xs[0]
  {
    if |xs| == 0 then ""
    else if |xs| == 1 then xs[0]
    else xs[0] + sep + Join(sep, xs[1..])
  }

  /** Python's `s.split(sep)`: scans left to right and cuts at every occurrence
      of `sep`; always at least one piece. */
  function Split(sep: string, s: string): (r: seq<string>)
    requires |sep| > 0
    ensures |r| >= 1
    decreases |s|
  {
    if |s| == 0 then [""]
    else if |sep| <= |s| && s[..|sep|] == sep then [""] + Split(sep, s[|sep|..])
    else
      var rest := Split(sep, s[1..]);
      [[s[0]] + rest[0]] + rest[1..]
  }

  /** A piece without the separator's first character is not cut at all. */
  lemma {:induction false} SplitNoSeparator(sep: string, a: string)
    requires |sep| > 0 && sep[0] !in a
    ensures Split(sep, a) == [a]
    decreases |a|
  {
    if |a| > 0 {
      assert !(|sep| <= |a| && a[..|sep|] == sep) by {
        if |sep| <= |a| { assert a[..|sep|][0] == a[0]; }
      }
      SplitNoSeparator(sep, a[1..]);
      assert [a[0]] + a[1..] == a;
    }
  }

  lemma {:induction false} SplitCutsAtSeparator(sep: string, a: string, b: string)
    requires |sep| > 0 && sep[0] !in a
    ensures Split(sep, a + sep + b) == [a] + Split(sep, b)
    decreases |a|
  {
    var s := a + sep + b;
    if |a| == 0 {
      assert s == sep + b;
      assert s[..|sep|] == sep;
      assert s[|sep|..] == b;
    } else {
      assert s[..|sep|] != sep by {
        if |sep| <= |s| { assert s[..|sep|][0] == a[0]; }
      }
      assert s[1..] == a[1..] + sep + b;
      SplitCutsAtSeparator(sep, a[1..], b);
      assert [a[0]] + a[1..] == a;
    }
  }

  /** Round trip: when no item contains the separator's first character,
      splitting the join gives back the items, so the join placed exactly
      `|xs| - 1` separators and kept every item, the empty ones included. */
  lemma {:induction false} SplitJoin(sep: string, xs: seq<string>)
    requires |sep| > 0 && |xs| >= 1
    requires forall i :: 0 <= i < |xs| ==> sep[0] !in xs[i]
    ensures Split(sep, Join(sep, xs)) == xs
    decreases |xs|
  {
    if |xs| == 1 {
      SplitNoSeparator(sep, xs[0]);
    } else {
      SplitCutsAtSeparator(sep, xs[0], Join(sep, xs[1..]));
      SplitJoin(sep, xs[1..]);
      assert [xs[0]] + xs[1..] == xs;
    }
  }
}

=== FILE: wrappers.dfy ===
/** An optional value: a dictionary lookup that may miss, an object that may not resolve. */
module Wrappers {

  datatype Option<+T> = None | Some(value: T) {

    /** The value held by Some, or `default` for None. */
    function GetOr(default: T): T {
      match this
      case Some(v) => v
      case None => default
    }
  }
}
